=== FILE: README.md ===
# Transaction reconciliation of the Firefly III browser extension for a bank page

This project models the core of a browser extension. The extension exports
the transactions a bank's web page lists into a Firefly III ledger, and
"scans" the page against what the ledger already holds. The model is written
in Dafny, and the properties are stated as contracts and lemmas that the
verifier proves.

What is modelled:

- **Scraping a row** (`scrapeTransactionsFromPage`). A signed amount becomes
  a withdrawal or a deposit, depending on the bank's sign convention. The
  page account goes on exactly one side, the amount becomes its absolute
  value, and the description is trimmed.
- **`isSame`**. This is the test that a ledger record is the scraped row. It
  compares:
  - the description, with white-space runs collapsed;
  - the type;
  - the summed split amounts, under the amount clause;
  - the date, exactly or, with fuzzy dates, within one day.
- **`doScan`**. It widens the ledger window with up to two extra fetches,
  de-duplicated by object identity. It matches scraped rows greedily, in
  display order, against a shrinking pool of records. Extra matches become
  duplicates. Leftover records dated after the last row form a tail of
  remote-only entries, each anchored to a row.
- **`FireflyTransactionUIAdder`**. This is the three append-only buckets,
  the duplicate entries and `processAll`. The page is abstracted to
  containers of rows, which is where remote-only rows are inserted and
  deleted. The "store" message of a local-only row is modelled too.
- **Export and auto-run control**:
  - `doScrape`, `enableAutoRun` and the `pageAlreadyScraped` guard;
  - the messages these send to the background worker;
  - the page's events: the two buttons, the scan request, the auto-run
    check and the URL match that clears the guard.
- **The URL-gated triggers of `src/common/buttons.ts`**. Their query
  stripping, suffix test and shared `lastUrl` de-duplication are modelled.

Representation:

- Amounts are integers in cents. Dates are integers in milliseconds.
- A row is named by its display index.
- A ledger record carries an `obj` number that stands for the identity of
  the deserialised object. `Array.prototype.includes` compares by identity,
  so record equality in the model is reference equality in the program.
- Every outgoing message is an `Effect` value. Operations return the list of
  effects they send, in order.
- Replies from the background worker are parameters. These include the
  ledger's `list_transactions` replies and the persisted auto-run phase.

Behaviour of the code worth knowing:

- The tail keeps leftover records dated strictly **after** the last scraped
  row (`>` at src/content_scripts/transactions.tsx:213); records dated on or
  before it are dropped.
- One ledger record is one match. A record with two legs matches a row only
  if the summed legs equal the row's amount, and it never makes a duplicate
  on its own: a duplicate needs a second record.
- Which record of several matching one row becomes the synced one, and so
  which become remote-only duplicates, depends on the order of the pool:
  `remoteMatches.slice(1)` at src/content_scripts/transactions.tsx:203 keeps
  the first match for the row. Which rows are synced and which are
  local-only does not depend on that order.
- Remote-only entries are placed in registration order, and the tail is
  registered in pool order. Tail rows sharing a `prevRow` therefore appear
  in pool order, each inserted just before that row. Tail rows newer than
  every row are each prepended to the top row's container, so they appear
  in reverse pool order.
- A remote-only row anchored to `prevRow` is inserted immediately before
  that row. Its `prevRow` is the last row in display order dated on or
  after the record, and `nextRow` is used only when there is no such row.

Modules:

| file | module | contents |
|---|---|---|
| wrappers.dfy | `Wrappers` | `Option`, `Result` |
| text.dfy | `Text` | the ECMAScript `\s` class, `trim`, `replace(/\s+/g, ' ')`, `endsWith` |
| ledger.dfy | `Ledger` | rows, splits, ledger records, configuration, messages |
| matching.dfy | `Matching` | scraping a row, `isSame` |
| scan_ui.dfy | `ScanUi` | buckets, rendering, placement, the delete button |
| reconcile.dfy | `Reconcile` | `doScan`: widening, matching loop, tail |
| auto_run.dfy | `AutoRun` | `doScrape`, `enableAutoRun`, page events |
| url_trigger.dfy | `UrlTrigger` | `runOnURLMatch`, `runOnContentChange` |

## Model

| member | source | states |
|---|---|---|
| Text.Trim | src/content_scripts/transactions.tsx:69 | the trimmed description neither starts nor ends with white space |
| Text.TrimPadded | src/content_scripts/transactions.tsx:69 | trimming removes exactly the leading and trailing white space around a text that starts and ends visibly |
| Text.TrimIdempotent | src/content_scripts/transactions.tsx:69 | trimming twice is trimming once |
| Text.CollapseSpace | src/content_scripts/transactions.tsx:141 | the collapsed text is no longer, and it starts with white space exactly when the original does |
| Text.CollapseSpaceCollapsed | src/content_scripts/transactions.tsx:141 | the collapsed text has no two adjacent white-space characters and no white space other than a plain space |
| Text.CollapseSpaceConcat | src/content_scripts/transactions.tsx:141 | after a part that ends visibly, collapsing a concatenation collapses each part on its own |
| Text.CollapseSpaceJoin | src/content_scripts/transactions.tsx:141 | a non-empty run of white space between two visible ends becomes exactly one plain space, and the parts either side are collapsed on their own |
| Text.CollapseSpaceIdempotent | src/content_scripts/transactions.tsx:141 | collapsing white space twice is collapsing once |
| Text.CollapseSpaceKeepsVisible | src/content_scripts/transactions.tsx:141 | collapsing keeps every non-space character, in order |
| Matching.ScrapeRow | src/content_scripts/transactions.tsx:53-69 | the split is a withdrawal exactly when the amount is negative under negative-means-withdrawal or positive otherwise (zero is a deposit); a withdrawal has the page account as source and no destination, a deposit the reverse; the amount is the absolute value, the date is the row's, the description is trimmed |
| Matching.ScrapePage | src/content_scripts/transactions.tsx:48-52 | one split per row, in display order |
| Matching.PageStores | src/content_scripts/transactions.tsx:79-85 | one single-split record per row, with rules applied and duplicate hashes rejected |
| Matching.ScrapePageSignFlip | src/content_scripts/transactions.tsx:60-63 | negating every amount and flipping the sign convention gives the same splits |
| Matching.SumAmountsAppend | src/content_scripts/transactions.tsx:147 | the total of a record's legs adds up over any split of the legs into two runs, and one leg totals its own amount |
| Matching.IsSame | src/content_scripts/transactions.tsx:139-164 | a record matches a split exactly when the collapsed descriptions are equal, the types are equal, the amount clause holds for the summed split amounts, and the dates are equal or, with fuzzy dates, strictly less than a day apart |
| Matching.CopyMatchesOnlyWhenCorrected | src/content_scripts/transactions.tsx:147-154 | as written, an exact copy of the scraped split matches exactly when negative amounts do not mean withdrawals; the corrected clause always accepts it |
| Matching.FuzzyDateWindow | src/content_scripts/transactions.tsx:155-162 | 23 hours apart matches exactly when fuzzy dates are on; a full day apart never matches; the same date always matches |
| Reconcile.Merge | src/content_scripts/transactions.tsx:182 | the existing records stay as a prefix; what is appended are fetched records not already present, each copy at most as often as fetched; a record is in the result exactly when it was existing or fetched |
| Reconcile.Fresh | src/content_scripts/transactions.tsx:182 | a record is kept exactly when it was fetched and is not already present, each copy at most as often as fetched |
| Reconcile.FreshAppend | src/content_scripts/transactions.tsx:182 | the filter keeps fetched order: it distributes over concatenation, and a single record is kept exactly when it is not already present |
| Reconcile.MergeOfFreshReplies | src/content_scripts/transactions.tsx:182 | when no fetched record is already present, the merge is plain concatenation |
| Reconcile.Widen | src/content_scripts/transactions.tsx:177-190 | one to three requests; a second exactly when the page has more rows than the first reply, a third exactly when it still has more rows than the merged pool; the first reply stays a prefix of the pool and every pooled record was fetched; as written a record is pooled exactly when some issued request returned it, and corrected the pool holds exactly the record ids those requests returned |
| Reconcile.FreshIds | src/content_scripts/transactions.tsx:182 | corrected filter: a fetched record is kept exactly when no present record has its id; distinct ids in the reply stay distinct |
| Reconcile.MergeById | src/content_scripts/transactions.tsx:182 | corrected merge: the existing records stay a prefix, a record is added only when its id is new, and the ids of the result are those of both sides |
| Reconcile.MergeByIdUniqueIds | src/content_scripts/transactions.tsx:182 | merging by id keeps every record id once when each side does |
| Reconcile.MergeFor | src/content_scripts/transactions.tsx:182 | either reading of the merge keeps the existing records as a prefix and adds only fetched records |
| Reconcile.WidenKeepsIdsUnique | src/content_scripts/transactions.tsx:177-190 | corrected, the widened pool holds every record id at most once when every reply does |
| Reconcile.RefetchedRecordDuplicatesItself | src/content_scripts/transactions.tsx:173-207 | as written, a record returned by both overlapping windows is pooled twice; its row is synced and the second copy is a remote-only duplicate whose id is the synced record's own |
| Reconcile.RefetchedRecordMatchedOnce | src/content_scripts/transactions.tsx:173-207 | corrected, the refetched record is pooled once; its row is synced and remote-only stays empty |
| Reconcile.TwiceHeldRecordStep | src/content_scripts/transactions.tsx:201-207 | a pool holding a matching record and a second object of it makes the first row synced and the second object its first duplicate |
| Reconcile.EmptyPoolAddsNoDuplicates | src/content_scripts/transactions.tsx:192-211 | once the pool is empty the loop records no remote-only entry and the pool stays empty |
| Reconcile.SameRecordsSameHit | src/content_scripts/transactions.tsx:201-207 | pools holding the same records either both match a row or both do not, and leave the same records behind |
| Reconcile.OrderStable | src/content_scripts/transactions.tsx:192-211 | from equal synced and local-only buckets, pools holding the same records in any order give the same synced and local-only buckets and the same leftover records |
| Reconcile.ClassifyOrderStable | src/content_scripts/transactions.tsx:190-223 | the synced and local-only buckets of a scan do not depend on the order the ledger returns its records in |
| Reconcile.MatchesOf | src/content_scripts/transactions.tsx:201 | a record is among the matches exactly when it is in the pool and matches the split |
| Reconcile.NonMatchesOf | src/content_scripts/transactions.tsx:207 | a record is left in the pool exactly when it is in it and does not match |
| Reconcile.MatchesOfAppend | src/content_scripts/transactions.tsx:201 | the matches keep pool order: the filter distributes over concatenation, and a single record is kept exactly when it matches |
| Reconcile.NonMatchesOfAppend | src/content_scripts/transactions.tsx:207 | the non-matches keep pool order: the filter distributes over concatenation, and a single record is kept exactly when it does not match |
| Reconcile.Without | src/content_scripts/transactions.tsx:207 | a record is kept exactly when it is in the pool and not among the given records |
| Reconcile.WithoutAppend | src/content_scripts/transactions.tsx:207 | removal keeps pool order: it distributes over concatenation, and a single record is kept exactly when it is not among the given records |
| Reconcile.WithoutMatchesIsNonMatches | src/content_scripts/transactions.tsx:207 | removing every record that `includes` finds among the matches is keeping the non-matching records, in order |
| Reconcile.MatchesSplitPool | src/content_scripts/transactions.tsx:201-207 | every record copy of the pool is either matched or kept, never both |
| Reconcile.RowMeta | src/content_scripts/transactions.tsx:195-200 | the entry of row i shows its split and the row itself, with the rows just above and below as neighbours and none past either end of the page |
| Reconcile.Step | src/content_scripts/transactions.tsx:192-210 | with k matches the row's entry is appended to synced (k > 0) or to local-only (k = 0); the matches after the first are appended to remote-only as duplicates of the row's entry, in pool order; the pool loses exactly the matches |
| Reconcile.MatchRows | src/content_scripts/transactions.tsx:190-211 | the buckets only grow at their ends, and synced plus local-only grow by one entry per row |
| Reconcile.PoolShrinks | src/content_scripts/transactions.tsx:207 | the loop only removes records from the pool |
| Reconcile.LeftoverMissesRow | src/content_scripts/transactions.tsx:190-211 | a record left after the rows from i on were matched was in the pool before them and matches none of those rows |
| Reconcile.LeftoversMatchNoRow | src/content_scripts/transactions.tsx:190-211 | no record left after the loop matches any row |
| Reconcile.RowsPartitioned | src/content_scripts/transactions.tsx:190-211 | every row lands in exactly one of synced and local-only, once, and both buckets keep display order |
| Reconcile.SyncedRowsHaveMatch | src/content_scripts/transactions.tsx:201-207 | a row is synced only if a record of the pool matches it |
| Reconcile.EarlierRowsWin | src/content_scripts/transactions.tsx:190-211 | a record that matches a row is claimed by that row or by an earlier synced row that it matches |
| Reconcile.ClaimsConserveRecords | src/content_scripts/transactions.tsx:201-207 | the records claimed row by row and the leftovers together are exactly the pool, as a multiset: none is claimed twice or lost |
| Reconcile.LateRecords | src/content_scripts/transactions.tsx:212-213 | exactly the leftover records whose first split is dated strictly after the last row are kept |
| Reconcile.LateRecordsAppend | src/content_scripts/transactions.tsx:212-213 | the date filter keeps pool order: it distributes over concatenation, and a single record is kept exactly when it is dated after the last row |
| Reconcile.LateRecordsCopies | src/content_scripts/transactions.tsx:212-213 | every copy of a late record is kept, and no copy of any other record |
| Reconcile.Anchor | src/content_scripts/transactions.tsx:216 | the anchor is a row dated on or after the record with every later row older; when there is none, every row is older |
| Reconcile.TailEntry | src/content_scripts/transactions.tsx:217-221 | the entry shows the record's first split tagged with its id, has no row of its own, and has exactly one of `prevRow` and `nextRow`, the latter being the first row |
| Reconcile.Tail | src/content_scripts/transactions.tsx:212-222 | one entry per leftover record dated after the last row, none with a row of its own, each dated after the last row |
| Reconcile.TailAppend | src/content_scripts/transactions.tsx:212-223 | the tail is in pool order: it distributes over concatenation of pools, and a single record gives its own entry exactly when it is dated after the last row, so the remote-only entries are registered in the order of the leftover records |
| Reconcile.TailAnchors | src/content_scripts/transactions.tsx:212-222 | every tail entry shows a record of the pool dated after the last row, anchored to the last row dated on or after it (and inserted before that row), which is never the bottom row, or else to the top row when every row is older |
| Reconcile.TailComplete | src/content_scripts/transactions.tsx:212-223 | every leftover record dated after the last row has a tail entry |
| Reconcile.RegisterAll | src/content_scripts/transactions.tsx:223 | the entries are appended to remote-only in order and the other buckets are unchanged |
| Reconcile.Classify | src/content_scripts/transactions.tsx:190-223 | the buckets belong to the page account, and synced plus local-only hold one entry per row |
| Reconcile.ClassifyPartitions | src/content_scripts/transactions.tsx:190-211 | after a whole scan every row is in exactly one of synced and local-only, in display order |
| Reconcile.ClassifySyncedHaveMatch | src/content_scripts/transactions.tsx:201-207 | a synced row has a matching record in the widened pool |
| Reconcile.ClassifyEarlierRowsWin | src/content_scripts/transactions.tsx:190-211 | any record matching a row is claimed by that row or an earlier synced one |
| Reconcile.ClassifyTail | src/content_scripts/transactions.tsx:212-223 | remote-only ends with the tail of the leftovers; the leftovers are records of the pool and match no row |
| Reconcile.ClassifyOneRow | src/content_scripts/transactions.tsx:190-211 | on a one-row page with one record, the row is synced exactly when the record matches it, and local-only otherwise |
| Reconcile.Requests | src/content_scripts/transactions.tsx:173-190 | the first request's window ends at the first row's date, every widening request's at the middle row's, all for the page account and the configured page size |
| Reconcile.Scan | src/content_scripts/transactions.tsx:166-224 | the account list is requested first; a page still loading stops with the guard untouched; otherwise the guard is set; an empty page stops before any transaction request; a record without splits stops the scan after widening; otherwise the buckets are the classification of the scraped rows against the widened pool |
| Reconcile.ScanOnlyQueries | src/content_scripts/transactions.tsx:166-190 | a scan sends the account list request and then only transaction list requests |
| Reconcile.MatchRowsIgnoreSign | src/content_scripts/transactions.tsx:201 | under the corrected amount clause the matching loop does not depend on the sign convention |
| Reconcile.ScanSignFlip | src/content_scripts/transactions.tsx:147-154 | under the corrected clause, a bank showing negated amounts under the other convention gets the same scan: same messages, guard and buckets |
| Reconcile.ScanAsWrittenMissesStoredRow | src/content_scripts/transactions.tsx:147-154 | as written, with negative amounts meaning withdrawals, a one-row page whose row the ledger holds as exported shows it as local-only; corrected, as synced |
| ScanUi.NewAdder | src/content_scripts/scan/transactions.ts:53-61 | a new collector has the account and three empty buckets |
| ScanUi.RegisterSynced | src/content_scripts/scan/transactions.ts:63-65 | exactly the entry is appended to synced; the other buckets are unchanged |
| ScanUi.RegisterRemoteOnly | src/content_scripts/scan/transactions.ts:67-69 | exactly the entry is appended to remote-only; the other buckets are unchanged |
| ScanUi.RegisterLocalOnly | src/content_scripts/scan/transactions.ts:71-73 | exactly the entry is appended to local-only; the other buckets are unchanged |
| ScanUi.DuplicateEntry | src/content_scripts/scan/transactions.ts:76-83 | the duplicate keeps the row, `prevRow` and `nextRow` of the scraped entry and shows the record's first split tagged with the record's id |
| ScanUi.RegisterDuplicates | src/content_scripts/scan/transactions.ts:75-85 | one remote-only entry per given record, in the given order, behind the existing ones; the other buckets are unchanged |
| ScanUi.StoreTx | src/content_scripts/scan/transactions.ts:113-131 | one non-auto-run record with rules applied and duplicate hashes tolerated, holding the entry's amount, description, date, type, source and destination |
| ScanUi.StoreTxOfScraped | src/content_scripts/scan/transactions.ts:113-131 | for a scraped entry the stored split is the entry's split itself |
| ScanUi.ProcessAll | src/content_scripts/scan/transactions.ts:87-111 | first the previous markup is cleared, then one step per synced, local-only and remote-only entry, in that order, each bucket in registration order; local-only steps carry the store message, remote-only steps the delete message for the entry's id |
| ScanUi.Locate | src/content_scripts/scan/transactions.ts:45 | the container and position found hold the row; none is found exactly when the page does not show the row |
| ScanUi.Place | src/content_scripts/scan/transactions.ts:44-50 | with `prevRow`, the new row goes immediately before it in its container; otherwise it becomes the first child of `nextRow`'s container; with no anchor row on the page the page is unchanged |
| ScanUi.PlaceCounts | src/content_scripts/scan/transactions.ts:44-50 | placing adds one synthesised row exactly when its anchor is on the page, and no page row appears or disappears |
| ScanUi.Clear | src/content_scripts/scan/transactions.ts:88 | the synthesised rows are removed from every container, and the number of containers is unchanged |
| ScanUi.ClearKeepsRows | src/content_scripts/scan/transactions.ts:88 | removing the previous markup keeps every page row on the page |
| ScanUi.AddedCountOfClear | src/content_scripts/scan/transactions.ts:88 | removing the previous markup leaves no synthesised row |
| ScanUi.ClearIdempotent | src/content_scripts/scan/transactions.ts:88 | clearing twice is clearing once |
| ScanUi.ClearPlace | src/content_scripts/scan/transactions.ts:88 | clearing undoes any placement |
| ScanUi.Present | src/content_scripts/scan/transactions.ts:87-111 | presenting the buckets clears earlier markup and then places every remote-only entry in order; styling leaves the structure alone |
| ScanUi.PresentIdempotent | src/content_scripts/scan/transactions.ts:87-111 | presenting the same buckets twice leaves the page as presenting them once, so repeated scans never accumulate stale rows |
| ScanUi.PresentRowCount | src/content_scripts/scan/transactions.ts:87-111 | after presenting, the page holds one synthesised row per remote-only entry whose anchor is on the page |
| ScanUi.ClickDelete | src/content_scripts/scan/transactions.ts:35-39 | a click sends the delete message for the row's record id and removes exactly that child from its container; other containers are unchanged |
| ScanUi.ClickDeleteRemovesOnlyItsRow | src/content_scripts/scan/transactions.ts:35-39 | putting the clicked row back at its position restores the container; the click removes exactly one synthesised row and leaves every page row in place |
| AutoRun.DoScrape | src/content_scripts/transactions.tsx:102-137 | an auto-run on a scraped page fails before any message; otherwise the account list is requested, a page still loading fails with the guard untouched, and reading the rows sets the guard; an auto-run store is sent exactly when an auto-run scrape succeeds with debugging off |
| AutoRun.DoScrapeSucceeds | src/content_scripts/transactions.tsx:107-136 | a scrape that reads rows reports the page account and one record per row after the account-list request; the records are stored unless auto-run debugging is on, and a single-account bank marks the phase complete once |
| AutoRun.EnableAutoRun | src/content_scripts/transactions.tsx:254-283 | nothing happens on a page that is not ready; only the transactions phase scrapes; the guard is set exactly when a scrape reads rows; an auto-run store is sent exactly when the page was not scraped, is rendered and debugging is off |
| AutoRun.AutoRunFinishes | src/content_scripts/transactions.tsx:262-276 | after a successful scrape a single-account bank marks the phase complete twice, last; any other bank ends with moving to the next account and going back to the accounts page |
| AutoRun.AutoRunFailureSwallowed | src/content_scripts/transactions.tsx:278-280 | a failed scrape ends the step with no further message and no retry |
| AutoRun.Handle | src/content_scripts/transactions.tsx:285-316 | only the URL match clears the guard and it sends nothing; a handler sends at most one auto-run store, and only when the guard was clear, setting it |
| AutoRun.RunAppend | src/content_scripts/transactions.tsx:285-316 | handling two batches of events in turn is handling their concatenation, the second starting from the guard the first left; one event is handled by its own handler |
| AutoRun.GuardSticks | src/content_scripts/transactions.tsx:287 | without a URL match, a set guard stays set whatever happens |
| AutoRun.OneAutoStorePerVisit | src/content_scripts/transactions.tsx:103-112 | between two resets of the guard at most one auto-run store is sent, none if the page was already scraped, and after one the guard is set |
| AutoRun.UrlMatchRearms | src/content_scripts/transactions.tsx:287 | after a URL match the next ready auto-run check in the transactions phase stores the page again |
| Text.EndsWithAppended | src/common/buttons.ts:24 | a string ends with a suffix exactly when it is some string followed by it; every string ends with the empty string |
| UrlTrigger.StripQuery | src/common/buttons.ts:23 | the result is a prefix of the address without `?`, followed in the address by `?` when shorter |
| UrlTrigger.StripQueryUnique | src/common/buttons.ts:23 | those three properties single out the stripped address |
| UrlTrigger.StripQueryOfPath | src/common/buttons.ts:39 | an address with a query strips to its path; stripping is idempotent |
| UrlTrigger.UrlMatchCallback | src/common/buttons.ts:19-28 | nothing happens while the button exists; otherwise the button is added exactly when the stripped address differs from the last one and ends with the path, and then it becomes the last one |
| UrlTrigger.RunOnUrlMatch | src/common/buttons.ts:14-31 | registering starts observing the body's children and runs the callback once at once |
| UrlTrigger.AddsOncePerAddress | src/common/buttons.ts:24-27 | repeated callbacks of any registrations at one stripped address add the button at most once, and not at all if it was added for that address already |
| UrlTrigger.ReturningAddsAgain | src/common/buttons.ts:12 | only the last address is remembered: leaving and coming back adds the button again |
| UrlTrigger.ContentChangeCallback | src/common/buttons.ts:38-43 | the function runs exactly when the stripped address ends with the path |
| UrlTrigger.RunOnContentChange | src/common/buttons.ts:34-46 | registering starts observing the whole body subtree and runs the callback once at once |
| UrlTrigger.ContentChangeRunsEveryTime | src/common/buttons.ts:38-43 | with no de-duplication, the function runs once per matching callback |
| UrlTrigger.EmptyPathRunsEveryTime | src/common/buttons.ts:40 | an empty path matches every address |
| UrlTrigger.ContentChangeSkipsOtherPages | src/common/buttons.ts:40-42 | at addresses that do not match the function never runs |

## Left out

- Floating point: `parseFloat`, `Math.abs` on numbers and the amount strings are left out. Amounts are exact integers in cents, so rounding in the summed amounts is not modelled.
- Date parsing: `Date.parse` and `new Date` are left out. Dates are integers in milliseconds, so the instants are already known.
- Row reading: `getRowElements`, `getRowDate`, `getRowAmount`, `getRowDesc`, `isPageReadyForScraping` and `getCurrentPageAccount` are selector code in src/content_scripts/scrape/transactions.ts, which is not part of this model. They supply a row list or "still loading", a readiness flag and the page account.
- The message transport: `chrome.runtime.sendMessage` and the background worker are left out. Messages are effect values, replies are parameters, and a failed or rejected reply is not modelled.
- Concurrency: each asynchronous handler runs to completion before the next event, so interleaved handlers are not modelled.
- Button construction and styling: `addButton`, `setTimeout` delays, debug logging and the rendering helpers of the unshown `custom.ts` are left out. Styling steps are recorded but change nothing in the page structure.
- `MutationObserver`: it is recorded only as the registration action. Its later callbacks are modelled as explicit calls.
- AutoRun.OneAutoStorePerVisit: this rests on two assumptions. First, each handler runs to completion: `doScrape` tests the guard at src/content_scripts/transactions.tsx:103 but sets it only at :112, after the awaits at :107 and :110, so two auto-run checks interleaved there could both store the page. Second, the guard reset at :287 (a callback of src/common/buttons.ts:20, which the assignment's `false` lets through) runs on every body-observer callback, not once per address change; the model makes each such reset an explicit `UrlMatch` event, so "between resets" may be a much shorter span than one visit.
- The call sites of the URL triggers: src/content_scripts/transactions.tsx:287 passes two arguments to the three-parameter `runOnURLMatch`, and the content-change trigger it uses comes from an unshown module. The model keeps src/common/buttons.ts on its own terms. At the page level, the guard reset is a `UrlMatch` event.
- A description the selector reads as missing (`getRowDesc(r)?.trim()` giving `undefined`) is not modelled: descriptions are strings.
- A ledger record without splits makes `isSame` throw. The model stops the scan with `MalformedRemote` and leaves the type error's other consequences out.
- Matching.ScrapeRow: the amount is kept as an integer rather than the decimal string the page builds, because the string form only matters to float parsing, which is left out.
- Ledger.TxType: only deposits and withdrawals are modelled. A transfer or any other Firefly type never passes the type test of `isSame` at src/content_scripts/transactions.tsx:144, because a scraped row is always one of the two. In the matching loop such a record acts like any record that matches no row, and in the tail, which does not look at the type, like any leftover record.
- ScanUi.Clear: this assumes that exactly the synthesised remote-only rows carry the class `added-by-firefly-iii-scan`, which `querySelectorAll` selects at src/content_scripts/scan/transactions.ts:88. The class is set by `buildRowForRemoteOnlyTx` (:45, :48) and perhaps by `applyStylingAndAddButtonForLocalOnlyRow` (:97). Both live in `custom.ts`, which is not part of this model. ScanUi.ClearKeepsRows, ScanUi.PresentIdempotent and ScanUi.PresentRowCount rest on this assumption. If the local-only button carried the class, clearing would also remove those buttons.
- ScanUi.ClickDelete: this assumes that the `elementToRemoveOnSuccess` handed to the button (src/content_scripts/scan/transactions.ts:33) is the synthesised row itself, as `buildRowForRemoteOnlyTx` in the unshown `custom.ts` is expected to pass it.
- Reconcile.ClassifyTail: this states the tail as a suffix of remote-only rather than the full bucket. The prefix before it is the duplicates, which Reconcile.Step describes.

## Findings

| source | as written | input that shows it | evidently intended | confidence | as-written member | corrected member |
|---|---|---|---|---|---|---|
| src/content_scripts/transactions.tsx:149-154 | with `negativeMeansWithdrawal` set, a record matches only when its summed amount DIFFERS from the scraped amount | `negativeMeansWithdrawal` true; a row of -500 cents, "Coffee"; the ledger holds exactly the split the export button stores for it; `isSame` is false, so the scan shows the stored row as local-only | equal amounts match under either sign convention, so the scan does not depend on the convention | not executed | Reconcile.ScanAsWrittenMissesStoredRow | Reconcile.ScanSignFlip |
| src/content_scripts/transactions.tsx:182, :189 | a widening reply is merged with `!remoteTxs.includes(v)`, an object-identity test; every reply is freshly deserialised, so nothing fetched is ever equal to a pooled object, while the windows overlap (end dates at :175 and :180/:187) | a page of two rows dated the same day, whose first row the ledger holds as record R; the first reply is `[R]`, so a second request is sent; it ends at the second row's date, the same day, and returns R again as a new object R'; the pool is `[R, R']`; both match the first row, which is synced, and R' becomes a remote-only duplicate whose delete button deletes R, the very record the row is synced with | records are merged by id, so a record returned twice is pooled once and never duplicates its own row | not executed | Reconcile.RefetchedRecordDuplicatesItself | Reconcile.RefetchedRecordMatchedOnce |

The scan takes the reading of its two defects as a parameter. Under
`AsWritten` it keeps the code's amount clause and merges the widening replies
by object identity. Under `Corrected` it compares amounts for equality and
merges the replies by record id (Reconcile.MergeById). For a single
comparison, Matching.CopyMatchesOnlyWhenCorrected states both halves of the
first defect. For the second, Reconcile.WidenKeepsIdsUnique states that the
corrected pool holds every record id once. Every result about the scan holds
under `Corrected`, and so does the proof that the scan is unchanged when the
bank's convention and every amount are flipped together.

=== FILE: auto_run.dfy ===
/** The export and auto-run control of src/content_scripts/transactions.tsx:
    `doScrape`, `enableAutoRun` and the page-level guard `pageAlreadyScraped`
    that keeps an auto-run from storing a page twice.

    Each operation is a function from the guard and what the environment
    answers (whether the page is ready, the persisted auto-run phase, the
    rows) to the messages it sends and the new guard. Asynchronous steps are
    taken to run to completion one at a time. */
module AutoRun {
  import opened Wrappers
  import opened Ledger
  import opened Matching
  import opened Reconcile

  /** `PageAccount`: what an export reports about the page's account. */
  datatype PageAccount = PageAccount(accountNumber: string, name: string, id: string)

  /** `TransactionScrape`: the page's account and the records sent. */
  datatype Scrape = Scrape(pageAccount: PageAccount, pageTransactions: seq<TxStore>)

  datatype ScrapeError = AlreadyScraped | RowsNotReady

  /** What a call did: the messages sent, in order, the guard afterwards,
      and the scrape or why it failed. */
  datatype ScrapeRun = ScrapeRun(effects: seq<Effect>, guard: bool, outcome: Result<Scrape, ScrapeError>)

  /** The number of `store_transactions` messages flagged as auto-run. */
  function AutoStores(effects: seq<Effect>): nat
  {
    if |effects| == 0 then 0
    else (if effects[0].StoreTransactions? && effects[0].isAutoRun then 1 else 0) + AutoStores(effects[1..])
  }

  lemma {:induction false} AutoStoresAppend(a: seq<Effect>, b: seq<Effect>)
    ensures AutoStores(a + b) == AutoStores(a) + AutoStores(b)
    decreases |a|
  {
    if |a| > 0 {
      assert (a + b)[0] == a[0] && (a + b)[1..] == a[1..] + b;
      AutoStoresAppend(a[1..], b);
    } else {
      assert a + b == b;
    }
  }

  lemma {:induction false} NoStoreNoAutoStores(effects: seq<Effect>)
    requires forall k :: 0 <= k < |effects| ==> !effects[k].StoreTransactions?
    ensures AutoStores(effects) == 0
    decreases |effects|
  {
    if |effects| > 0 {
      NoStoreNoAutoStores(effects[1..]);
    }
  }

  /** `doScrape(isAutoRun)`. An auto-run on a page already scraped stops
      before any message. Otherwise the account list is requested; a page
      still loading stops there with the guard as it was. Reading the rows
      sets the guard; the records are stored unless auto-run debugging is
      on, and a single-account bank marks the transactions phase complete. */
  function DoScrape(cfg: Config, guard: bool, isAutoRun: bool, acct: Account, page: Extraction): (run: ScrapeRun)
    ensures run.outcome == Failure(AlreadyScraped) <==> isAutoRun && guard
    ensures run.outcome == Failure(AlreadyScraped) ==> run.effects == []
    ensures run.outcome == Failure(RowsNotReady) <==> !(isAutoRun && guard) && page.StillLoading?
    ensures run.outcome == Failure(RowsNotReady) ==> run.effects == [ListAccounts]
    ensures run.guard == (guard || page.Rendered?)
    ensures AutoStores(run.effects) == (if isAutoRun && run.outcome.Success? && !cfg.debugAutoRun then 1 else 0)
    ensures run.outcome.Success? ==> page.Rendered?
  {
    if isAutoRun && guard then ScrapeRun([], guard, Failure(AlreadyScraped))
    else if page.StillLoading? then ScrapeRun([ListAccounts], guard, Failure(RowsNotReady))
    else
      var stores := PageStores(ScrapePage(cfg, acct, page.rows));
      var store := if cfg.debugAutoRun then [] else [StoreTransactions(isAutoRun, stores)];
      var complete := if cfg.isSingleAccountBank then [CompleteAutoRunState(Transactions)] else [];
      var effects := [ListAccounts] + store + complete;
      assert AutoStores(complete) == 0 by { if complete != [] { assert complete[1..] == []; } }
      AutoStoresAppend([ListAccounts], store);
      AutoStoresAppend([ListAccounts] + store, complete);
      ScrapeRun(effects, true, Success(Scrape(PageAccount(acct.accountNumber, acct.name, acct.id), stores)))
  }

  /** What a successful scrape reports and sends: the page account and one
      record per row, after the account-list request; the records go out
      unless auto-run debugging is on, and a single-account bank marks the
      transactions phase complete once. */
  lemma DoScrapeSucceeds(cfg: Config, guard: bool, isAutoRun: bool, acct: Account, rows: seq<Row>)
    requires !(isAutoRun && guard)
    ensures var run := DoScrape(cfg, guard, isAutoRun, acct, Rendered(rows));
            && run.outcome.Success?
            && run.outcome.value.pageAccount == PageAccount(acct.accountNumber, acct.name, acct.id)
            && run.outcome.value.pageTransactions == PageStores(ScrapePage(cfg, acct, rows))
            && |run.effects| == 1 + (if cfg.debugAutoRun then 0 else 1) + (if cfg.isSingleAccountBank then 1 else 0)
            && run.effects[0] == ListAccounts
            && (StoreTransactions(isAutoRun, run.outcome.value.pageTransactions) in run.effects <==> !cfg.debugAutoRun)
            && multiset(run.effects)[CompleteAutoRunState(Transactions)] == (if cfg.isSingleAccountBank then 1 else 0)
  {
    var run := DoScrape(cfg, guard, isAutoRun, acct, Rendered(rows));
    var stores := PageStores(ScrapePage(cfg, acct, rows));
    var store := if cfg.debugAutoRun then [] else [StoreTransactions(isAutoRun, stores)];
    var complete := if cfg.isSingleAccountBank then [CompleteAutoRunState(Transactions)] else [];
    assert run.effects == [ListAccounts] + store + complete;
    assert multiset(run.effects) == multiset([ListAccounts]) + multiset(store) + multiset(complete);
  }

  /** What a handler did: the messages sent, in order, and the guard
      afterwards. */
  datatype Trace = Trace(effects: seq<Effect>, guard: bool)

  /** `enableAutoRun`. `ready` is the page's readiness check and `state` the
      persisted phase the background worker answers. Only a ready page in
      the transactions phase scrapes; after a successful scrape a
      single-account bank marks the phase complete (a second time), any
      other bank moves on to the next account and goes back to the accounts
      page. A failed scrape is dropped without a retry. */
  function EnableAutoRun(cfg: Config, guard: bool, ready: bool, state: AutoRunState, acct: Account, page: Extraction): (t: Trace)
    ensures !ready ==> t == Trace([], guard)
    ensures ready && state != Transactions ==> t == Trace([GetAutoRunState], guard)
    ensures ready ==> |t.effects| >= 1 && t.effects[0] == GetAutoRunState
    ensures t.guard == (guard || (ready && state == Transactions && page.Rendered?))
    ensures AutoStores(t.effects) == (if ready && state == Transactions && !guard && page.Rendered? && !cfg.debugAutoRun then 1 else 0)
  {
    if !ready then Trace([], guard)
    else if state != Transactions then Trace([GetAutoRunState], guard)
    else
      var run := DoScrape(cfg, guard, true, acct, page);
      var after :=
        if run.outcome.Failure? then []
        else if cfg.isSingleAccountBank then [CompleteAutoRunState(Transactions)]
        else [IncrementAutoRunTxAccount(run.outcome.value.pageAccount.name), BackToAccountsPage];
      AutoStoresAppend([GetAutoRunState], run.effects);
      AutoStoresAppend([GetAutoRunState] + run.effects, after);
      assert AutoStores(after) == 0 by {
        if after != [] {
          assert after[1..] == [] || after[1..][1..] == [];
        }
      }
      Trace([GetAutoRunState] + run.effects + after, run.guard)
  }

  /** After a successful auto-run scrape a single-account bank has marked
      the transactions phase complete twice, the last message being the
      second; any other bank ends with moving on to the next account and
      going back to the accounts page. */
  lemma AutoRunFinishes(cfg: Config, acct: Account, rows: seq<Row>)
    ensures var t := EnableAutoRun(cfg, false, true, Transactions, acct, Rendered(rows));
            if cfg.isSingleAccountBank then
              && multiset(t.effects)[CompleteAutoRunState(Transactions)] == 2
              && t.effects[|t.effects| - 1] == CompleteAutoRunState(Transactions)
            else
              && |t.effects| >= 2
              && t.effects[|t.effects| - 2..] == [IncrementAutoRunTxAccount(acct.name), BackToAccountsPage]
  {
    var run := DoScrape(cfg, false, true, acct, Rendered(rows));
    var t := EnableAutoRun(cfg, false, true, Transactions, acct, Rendered(rows));
    DoScrapeSucceeds(cfg, false, true, acct, rows);
    if cfg.isSingleAccountBank {
      var effects := [GetAutoRunState] + run.effects + [CompleteAutoRunState(Transactions)];
      assert t.effects == effects;
      assert multiset(effects) == multiset([GetAutoRunState]) + multiset(run.effects) + multiset([CompleteAutoRunState(Transactions)]);
    } else {
      assert t.effects == [GetAutoRunState] + run.effects + [IncrementAutoRunTxAccount(acct.name), BackToAccountsPage];
    }
  }

  /** A scrape that fails, because the page was already scraped or its rows
      are still loading, ends the auto-run step: no further message about the
      auto-run phase follows. */
  lemma AutoRunFailureSwallowed(cfg: Config, guard: bool, acct: Account, page: Extraction)
    requires guard || page.StillLoading?
    ensures var t := EnableAutoRun(cfg, guard, true, Transactions, acct, page);
            && t.effects == [GetAutoRunState] + DoScrape(cfg, guard, true, acct, page).effects
            && |t.effects| <= 2
            && forall k :: 0 <= k < |t.effects| ==> t.effects[k] in {GetAutoRunState, ListAccounts}
  {
  }

  // ---------------------------------------------------------------------
  // The page over time

  /** What can happen to the transactions page: a click on the export
      button, a scan (its button or the background worker's request), an
      auto-run check when the page content changes, and the URL match that
      clears the guard. */
  datatype PageEvent =
    | ExportClick(acct: Account, page: Extraction)
    | ScanRequest(acct: Account, page: Extraction, first: seq<RemoteTx>, second: seq<RemoteTx>, third: seq<RemoteTx>)
    | AutoRunCheck(ready: bool, state: AutoRunState, acct: Account, page: Extraction)
    | UrlMatch

  function Handle(rule: Rule, cfg: Config, guard: bool, e: PageEvent): (t: Trace)
    ensures e.UrlMatch? ==> t == Trace([], false)
    ensures !e.UrlMatch? && guard ==> t.guard
    ensures AutoStores(t.effects) <= 1
    ensures AutoStores(t.effects) == 1 ==> !guard && t.guard
  {
    match e
    case ExportClick(acct, page) =>
      var run := DoScrape(cfg, guard, false, acct, page);
      Trace(run.effects, run.guard)
    case ScanRequest(acct, page, first, second, third) =>
      var run := Scan(rule, cfg, guard, acct, page, first, second, third);
      ScanOnlyQueries(rule, cfg, guard, acct, page, first, second, third);
      NoStoreNoAutoStores(run.effects);
      Trace(run.effects, run.guard)
    case AutoRunCheck(ready, state, acct, page) =>
      EnableAutoRun(cfg, guard, ready, state, acct, page)
    case UrlMatch =>
      Trace([], false)
  }

  /** The events in order, each handler seeing the guard the previous one
      left. */
  function Run(rule: Rule, cfg: Config, guard: bool, es: seq<PageEvent>): (t: Trace)
    decreases |es|
  {
    if |es| == 0 then Trace([], guard)
    else
      var t1 := Handle(rule, cfg, guard, es[0]);
      var t2 := Run(rule, cfg, t1.guard, es[1..]);
      Trace(t1.effects + t2.effects, t2.guard)
  }

  /** Running two batches of events one after the other is running their
      concatenation: the effects are joined and the second batch starts from
      the guard the first left; one event is handled by its handler alone. */
  lemma {:induction false} RunAppend(rule: Rule, cfg: Config, guard: bool, a: seq<PageEvent>, b: seq<PageEvent>)
    ensures var ta := Run(rule, cfg, guard, a);
            var tb := Run(rule, cfg, ta.guard, b);
            Run(rule, cfg, guard, a + b) == Trace(ta.effects + tb.effects, tb.guard)
    ensures |a| == 1 ==> Run(rule, cfg, guard, a) == Handle(rule, cfg, guard, a[0])
    decreases |a|
  {
    if |a| == 0 {
      assert a + b == b;
    } else {
      var t1 := Handle(rule, cfg, guard, a[0]);
      Text.ConsSlice(a, b);
      RunCons(rule, cfg, guard, a + b);
      RunCons(rule, cfg, guard, a);
      RunAppend(rule, cfg, t1.guard, a[1..], b);
      var ta := Run(rule, cfg, t1.guard, a[1..]);
      var tb := Run(rule, cfg, ta.guard, b);
      Text.ConcatAssoc(t1.effects, ta.effects, tb.effects);
      if |a| == 1 {
        assert a[1..] == [];
        assert t1.effects + [] == t1.effects;
      }
    }
  }

  lemma RunCons(rule: Rule, cfg: Config, guard: bool, es: seq<PageEvent>)
    requires |es| > 0
    ensures var t1 := Handle(rule, cfg, guard, es[0]);
            var t2 := Run(rule, cfg, t1.guard, es[1..]);
            Run(rule, cfg, guard, es) == Trace(t1.effects + t2.effects, t2.guard)
  {
  }

  /** Only the URL match clears the guard. */
  lemma {:induction false} GuardSticks(rule: Rule, cfg: Config, guard: bool, es: seq<PageEvent>)
    requires forall k :: 0 <= k < |es| ==> !es[k].UrlMatch?
    ensures guard ==> Run(rule, cfg, guard, es).guard
    decreases |es|
  {
    if |es| > 0 {
      GuardSticks(rule, cfg, Handle(rule, cfg, guard, es[0]).guard, es[1..]);
    }
  }

  /** Between two resets of the guard the auto-run stores the page at most
      once, and not at all once the page has been scraped. */
  lemma {:induction false} OneAutoStorePerVisit(rule: Rule, cfg: Config, guard: bool, es: seq<PageEvent>)
    requires forall k :: 0 <= k < |es| ==> !es[k].UrlMatch?
    ensures AutoStores(Run(rule, cfg, guard, es).effects) <= (if guard then 0 else 1)
    ensures AutoStores(Run(rule, cfg, guard, es).effects) == 1 ==> Run(rule, cfg, guard, es).guard
    decreases |es|
  {
    if |es| > 0 {
      var t1 := Handle(rule, cfg, guard, es[0]);
      var t2 := Run(rule, cfg, t1.guard, es[1..]);
      OneAutoStorePerVisit(rule, cfg, t1.guard, es[1..]);
      GuardSticks(rule, cfg, t1.guard, es[1..]);
      AutoStoresAppend(t1.effects, t2.effects);
    }
  }

  /** A URL match re-arms the auto-run: whatever happened before, the
      next check on a ready, rendered page in the transactions phase
      scrapes it again. */
  lemma UrlMatchRearms(rule: Rule, cfg: Config, guard: bool, acct: Account, rows: seq<Row>)
    requires !cfg.debugAutoRun
    ensures var t := Run(rule, cfg, guard, [UrlMatch, AutoRunCheck(true, Transactions, acct, Rendered(rows))]);
            AutoStores(t.effects) == 1 && t.guard
  {
    var t1 := Handle(rule, cfg, guard, UrlMatch);
    var e := AutoRunCheck(true, Transactions, acct, Rendered(rows));
    var es := [UrlMatch, e];
    assert es[1..] == [e];
    var t2 := Handle(rule, cfg, false, e);
    assert [e][1..] == [];
    assert Run(rule, cfg, false, [e]) == Trace(t2.effects + [], t2.guard);
    assert t2.effects + [] == t2.effects;
    AutoStoresAppend(t1.effects, t2.effects);
  }
}

=== FILE: ledger.dfy ===
/** The data the reconciliation core works on: the typed values the page
    extractor supplies, the remote ledger's transaction records, the
    configuration flags of the extension build, and the logical messages the
    content script sends to the background worker.

    Amounts are integers in minor currency units (cents) and dates are
    integers in milliseconds since the epoch, so the page's `parseFloat`,
    `Math.abs` and `Date.parse` are represented by exact integer values. */
module Ledger {
  import opened Wrappers

  datatype TxType = Deposit | Withdrawal

  /** One day in milliseconds: the fuzzy-date tolerance. */
  const DayMillis: int := 24 * 60 * 60 * 1000

  /** The build-time flags the content script reads. */
  datatype Config = Config(
    negativeMeansWithdrawal: bool,
    allowFuzzyDates: bool,
    transactionsPerPage: int,
    isSingleAccountBank: bool,
    debugAutoRun: bool)

  /** The remote account the open page belongs to. */
  datatype Account = Account(id: string, name: string, accountNumber: string)

  /** One transaction row as the page extractor reads it: the row's date, its
      signed amount and its raw description. */
  datatype Row = Row(date: int, amount: int, desc: string)

  /** What the page can tell about the rows: either every row is rendered,
      or reading a row failed because the page is still loading. */
  datatype Extraction = Rendered(rows: seq<Row>) | StillLoading

  /** One leg of a transaction: the fields of a split that the core reads or
      writes. `remoteId` is set only on entries derived from a remote record. */
  datatype Split = Split(
    txType: TxType,
    date: int,
    amount: int,
    description: string,
    sourceId: Option<string>,
    destinationId: Option<string>,
    remoteId: Option<string>)

  /** A transaction as the remote ledger returns it. `obj` stands for the
      identity of the deserialised object: the page compares records with
      `Array.prototype.includes`, which tests identity, so two records are the
      same record exactly when they are equal including `obj`. */
  datatype RemoteTx = RemoteTx(obj: nat, id: string, splits: seq<Split>)

  /** A transaction as it is sent for storage. */
  datatype TxStore = TxStore(errorIfDuplicateHash: bool, applyRules: bool, transactions: seq<Split>)

  /** The persisted auto-run phase. */
  datatype AutoRunState = Idle | Accounts | Transactions

  /** The observable actions of the content script, in the order it takes
      them: messages to the background worker and the back navigation. */
  datatype Effect =
    | ListAccounts
    | ListTransactions(accountId: string, endDate: int, pageSize: int)
    | StoreTransactions(isAutoRun: bool, value: seq<TxStore>)
    | DeleteTransaction(remoteId: Option<string>)
    | GetAutoRunState
    | CompleteAutoRunState(state: AutoRunState)
    | IncrementAutoRunTxAccount(lastAccountNameCompleted: string)
    | BackToAccountsPage

  /** Every record has at least one split, so its first split can be read. */
  predicate WellFormed(pool: seq<RemoteTx>)
  {
    forall v :: v in pool ==> |v.splits| > 0
  }
}

=== FILE: matching.dfy ===
/** Normalisation of scraped rows and the equivalence test between a remote
    record and a scraped split (`scrapeTransactionsFromPage` and `isSame` in
    src/content_scripts/transactions.tsx). */
module Matching {
  import opened Wrappers
  import opened Text
  import opened Ledger

  function Abs(x: int): nat
  {
    if x < 0 then -x else x
  }

  /** Turns one row into the split the page would store. The page account
      sits on exactly one side: the source of a withdrawal or the destination
      of a deposit; the counterparty is unknown. */
  function ScrapeRow(cfg: Config, acct: Account, row: Row): (t: Split)
    ensures t.date == row.date && t.amount == Abs(row.amount)
    ensures t.description == Trim(row.desc) && t.remoteId == None
    ensures t.txType == Withdrawal <==>
              (row.amount < 0 && cfg.negativeMeansWithdrawal) || (row.amount > 0 && !cfg.negativeMeansWithdrawal)
    ensures t.txType == Withdrawal ==> t.sourceId == Some(acct.id) && t.destinationId == None
    ensures t.txType == Deposit ==> t.destinationId == Some(acct.id) && t.sourceId == None
  {
    var withdrawal := (row.amount < 0 && cfg.negativeMeansWithdrawal) || (row.amount > 0 && !cfg.negativeMeansWithdrawal);
    if withdrawal then
      Split(Withdrawal, row.date, Abs(row.amount), Trim(row.desc), Some(acct.id), None, None)
    else
      Split(Deposit, row.date, Abs(row.amount), Trim(row.desc), None, Some(acct.id), None)
  }

  /** Every row of the page, in display order; the index of a split is the
      handle of the row it came from. */
  function ScrapePage(cfg: Config, acct: Account, rows: seq<Row>): (s: seq<Split>)
    ensures |s| == |rows|
    ensures forall i :: 0 <= i < |rows| ==> s[i] == ScrapeRow(cfg, acct, rows[i])
  {
    seq(|rows|, i requires 0 <= i < |rows| => ScrapeRow(cfg, acct, rows[i]))
  }

  /** The records the export button sends: one single-split transaction per
      row, with rules applied and duplicate hashes rejected. */
  function PageStores(splits: seq<Split>): (stores: seq<TxStore>)
    ensures |stores| == |splits|
    ensures forall i :: 0 <= i < |splits| ==> stores[i] == TxStore(true, true, [splits[i]])
  {
    seq(|splits|, i requires 0 <= i < |splits| => TxStore(true, true, [splits[i]]))
  }

  /** Flipping the sign convention and negating the row's amount yields the
      same split: the classification only depends on the bank's convention
      agreeing with the flag. */
  lemma ScrapeSignFlip(cfg: Config, acct: Account, row: Row)
    ensures ScrapeRow(cfg.(negativeMeansWithdrawal := !cfg.negativeMeansWithdrawal), acct, row.(amount := -row.amount))
         == ScrapeRow(cfg, acct, row)
  {
  }

  lemma ScrapePageSignFlip(cfg: Config, acct: Account, rows: seq<Row>)
    ensures ScrapePage(cfg.(negativeMeansWithdrawal := !cfg.negativeMeansWithdrawal), acct, Negated(rows))
         == ScrapePage(cfg, acct, rows)
  {
    var flipped := cfg.(negativeMeansWithdrawal := !cfg.negativeMeansWithdrawal);
    forall i | 0 <= i < |rows|
      ensures ScrapePage(flipped, acct, Negated(rows))[i] == ScrapePage(cfg, acct, rows)[i]
    {
      ScrapeSignFlip(cfg, acct, rows[i]);
    }
  }

  /** The rows with every amount negated. */
  function Negated(rows: seq<Row>): (r: seq<Row>)
    ensures |r| == |rows|
    ensures forall i :: 0 <= i < |rows| ==> r[i] == rows[i].(amount := -rows[i].amount)
  {
    seq(|rows|, i requires 0 <= i < |rows| => rows[i].(amount := -rows[i].amount))
  }

  /** How the scan's two defects are read: as the page has them, or as it
      evidently intends them (see the README's findings). `Corrected`
      compares amounts for equality in `isSame`, and de-duplicates the
      widening replies by record id rather than by object identity. */
  datatype Rule = AsWritten | Corrected

  /** `reduce((t, v) => t + v)` over the split amounts. */
  function SumAmounts(splits: seq<Split>): int
  {
    if |splits| == 0 then 0 else splits[0].amount + SumAmounts(splits[1..])
  }

  /** The total of two runs of legs is the sum of their totals, and a
      single leg totals its own amount. */
  lemma {:induction false} SumAmountsAppend(a: seq<Split>, b: seq<Split>)
    ensures SumAmounts(a + b) == SumAmounts(a) + SumAmounts(b)
    ensures |a| == 1 ==> SumAmounts(a) == a[0].amount
    decreases |a|
  {
    if |a| == 0 {
      assert a + b == b;
    } else {
      assert (a + b)[0] == a[0] && (a + b)[1..] == a[1..] + b;
      SumAmountsAppend(a[1..], b);
      if |a| == 1 {
        assert a[1..] == [];
      }
    }
  }

  predicate DatesMatch(cfg: Config, remoteDate: int, scrapedDate: int)
  {
    remoteDate == scrapedDate || (cfg.allowFuzzyDates && Abs(remoteDate - scrapedDate) < DayMillis)
  }

  /** The amount clause. As written it demands equal amounts when negative
      means deposit and DIFFERENT amounts when negative means withdrawal. */
  predicate AmountsMatch(rule: Rule, cfg: Config, remoteAmt: int, scrapedAmt: int)
  {
    match rule
    case AsWritten => (remoteAmt == scrapedAmt) != cfg.negativeMeansWithdrawal
    case Corrected => remoteAmt == scrapedAmt
  }

  /** `isSame(remote, scraped)`: the first split's description (up to runs of
      white space) and type agree, the amounts pass the amount clause, and the
      dates are equal or, with fuzzy dates, less than a day apart. */
  function IsSame(rule: Rule, cfg: Config, remote: RemoteTx, scraped: Split): (same: bool)
    requires |remote.splits| > 0
    ensures same <==>
              && CollapseSpace(remote.splits[0].description) == CollapseSpace(scraped.description)
              && remote.splits[0].txType == scraped.txType
              && AmountsMatch(rule, cfg, SumAmounts(remote.splits), scraped.amount)
              && DatesMatch(cfg, remote.splits[0].date, scraped.date)
  {
    var tx := remote.splits[0];
    if CollapseSpace(tx.description) != CollapseSpace(scraped.description) then false
    else if tx.txType != scraped.txType then false
    else
      var remoteAmt := SumAmounts(remote.splits);
      var scrapedAmt := scraped.amount;
      if rule.AsWritten? && remoteAmt == scrapedAmt && cfg.negativeMeansWithdrawal then false
      else if rule.AsWritten? && remoteAmt != scrapedAmt && !cfg.negativeMeansWithdrawal then false
      else if rule.Corrected? && remoteAmt != scrapedAmt then false
      else if tx.date != scraped.date then cfg.allowFuzzyDates && Abs(tx.date - scraped.date) < DayMillis
      else true
  }

  /** A record holding one copy of a split, with a description that differs
      from it at most in white space, under another identity. */
  predicate IsCopyOf(remote: RemoteTx, scraped: Split)
  {
    && |remote.splits| == 1
    && remote.splits[0].(description := scraped.description, remoteId := scraped.remoteId) == scraped
    && CollapseSpace(remote.splits[0].description) == CollapseSpace(scraped.description)
  }

  /** The amount clause as written rejects a record that is an exact copy of
      the scraped split whenever negative amounts mean withdrawals; the
      corrected clause accepts it under either convention. */
  lemma CopyMatchesOnlyWhenCorrected(cfg: Config, remote: RemoteTx, scraped: Split)
    requires IsCopyOf(remote, scraped)
    ensures IsSame(AsWritten, cfg, remote, scraped) <==> !cfg.negativeMeansWithdrawal
    ensures IsSame(Corrected, cfg, remote, scraped)
  {
    assert SumAmounts(remote.splits) == remote.splits[0].amount + SumAmounts([]);
  }

  /** The corrected test does not read the sign-convention flag at all. */
  lemma CorrectedIgnoresSignFlag(cfg: Config, cfg': Config, remote: RemoteTx, scraped: Split)
    requires |remote.splits| > 0
    requires cfg'.allowFuzzyDates == cfg.allowFuzzyDates
    ensures IsSame(Corrected, cfg, remote, scraped) == IsSame(Corrected, cfg', remote, scraped)
  {
  }

  /** Two otherwise identical transactions 23 hours apart match exactly when
      fuzzy dates are allowed, and never when they are a full day apart. */
  lemma FuzzyDateWindow(cfg: Config, scraped: Split, remote: RemoteTx, skew: int)
    requires |remote.splits| == 1
    requires remote.splits[0] == scraped.(date := scraped.date + skew)
    requires !cfg.negativeMeansWithdrawal
    ensures skew == 23 * 60 * 60 * 1000 ==> (IsSame(AsWritten, cfg, remote, scraped) <==> cfg.allowFuzzyDates)
    ensures skew == DayMillis ==> !IsSame(AsWritten, cfg, remote, scraped)
    ensures skew == 0 ==> IsSame(AsWritten, cfg, remote, scraped)
  {
    assert SumAmounts(remote.splits) == remote.splits[0].amount + SumAmounts([]);
  }
}

=== FILE: reconcile.dfy ===
/** The reconciliation pass of `doScan` in
    src/content_scripts/transactions.tsx: widening the remote window, the
    greedy display-order matching of scraped rows against a pool of remote
    records, and the selection and anchoring of the remote-only tail. */
module Reconcile {
  import opened Wrappers
  import opened Text
  import opened Ledger
  import opened Matching
  import opened ScanUi

  // ---------------------------------------------------------------------
  // Widening the remote window

  /** `[...existing, ...fetched.filter(v => !existing.includes(v))]`. */
  function Merge(existing: seq<RemoteTx>, fetched: seq<RemoteTx>): (r: seq<RemoteTx>)
    ensures existing <= r
    ensures forall v :: v in r <==> v in existing || v in fetched
    ensures forall k :: |existing| <= k < |r| ==> r[k] !in existing
    ensures multiset(r[|existing|..]) <= multiset(fetched)
  {
    existing + Fresh(existing, fetched)
  }

  /** The fetched records that are not already present, in fetch order:
      the filter `Without` with the fetched records as the pool. */
  function Fresh(existing: seq<RemoteTx>, fetched: seq<RemoteTx>): (r: seq<RemoteTx>)
    ensures forall v :: v in r <==> v in fetched && v !in existing
    ensures multiset(r) <= multiset(fetched)
  {
    WithoutSubMultiset(fetched, existing);
    Without(fetched, existing)
  }

  /** Replies to separate requests are separate objects, so when no fetched
      record is already present the merge is a plain concatenation. */
  lemma {:induction false} MergeOfFreshReplies(existing: seq<RemoteTx>, fetched: seq<RemoteTx>)
    requires forall k :: 0 <= k < |fetched| ==> fetched[k] !in existing
    ensures Merge(existing, fetched) == existing + fetched
  {
    WithoutKeepsAll(fetched, existing);
  }

  /** The record ids a pool holds. */
  function Ids(pool: seq<RemoteTx>): set<string>
  {
    set v | v in pool :: v.id
  }

  /** No record id occurs twice in the pool. */
  predicate UniqueIds(pool: seq<RemoteTx>)
  {
    forall a, b :: 0 <= a < b < |pool| ==> pool[a].id != pool[b].id
  }

  /** The fetched records whose id is not already present, in fetch order. */
  function FreshIds(existing: seq<RemoteTx>, fetched: seq<RemoteTx>): (r: seq<RemoteTx>)
    ensures forall v :: v in r <==> v in fetched && v.id !in Ids(existing)
    ensures UniqueIds(fetched) ==> UniqueIds(r)
  {
    if fetched == [] then []
    else
      var rest := FreshIds(existing, fetched[1..]);
      assert forall v :: v in rest ==> v in fetched[1..];
      if fetched[0].id in Ids(existing) then rest else [fetched[0]] + rest
  }

  /** The merge the widening evidently intends: a fetched record is added
      only when no record with its id is already present. */
  function MergeById(existing: seq<RemoteTx>, fetched: seq<RemoteTx>): (r: seq<RemoteTx>)
    ensures existing <= r
    ensures forall v :: v in r <==> v in existing || (v in fetched && v.id !in Ids(existing))
    ensures Ids(r) == Ids(existing) + Ids(fetched)
  {
    var added := FreshIds(existing, fetched);
    assert Ids(existing + added) == Ids(existing) + Ids(fetched) by {
      forall id | id in Ids(fetched) ensures id in Ids(existing + added) {
        var v :| v in fetched && v.id == id;
        if id !in Ids(existing) { assert v in added; }
      }
    }
    existing + added
  }

  /** Merging by id keeps every record id once when each side does. */
  lemma MergeByIdUniqueIds(existing: seq<RemoteTx>, fetched: seq<RemoteTx>)
    requires UniqueIds(existing) && UniqueIds(fetched)
    ensures UniqueIds(MergeById(existing, fetched))
  {
    var added := FreshIds(existing, fetched);
    var r := MergeById(existing, fetched);
    forall a, b | 0 <= a < b < |r| ensures r[a].id != r[b].id {
      if b >= |existing| {
        assert r[b] == added[b - |existing|];
        if a < |existing| {
          assert r[a] in existing;
          assert r[b].id !in Ids(existing);
        } else {
          assert r[a] == added[a - |existing|];
        }
      }
    }
  }

  /** The merge each reading of the widening applies. */
  function MergeFor(rule: Rule, existing: seq<RemoteTx>, fetched: seq<RemoteTx>): (r: seq<RemoteTx>)
    ensures existing <= r
    ensures forall v :: v in r ==> v in existing || v in fetched
  {
    if rule.AsWritten? then Merge(existing, fetched) else MergeById(existing, fetched)
  }

  /** The pool after widening, and how many `list_transactions` requests
      it took. */
  datatype Widened = Widened(pool: seq<RemoteTx>, requests: nat)

  /** Up to two extra fetches, each issued only while the page shows more
      rows than the pool holds. As written the replies are merged by
      object identity; corrected, by record id. */
  function Widen(rule: Rule, rowCount: nat, first: seq<RemoteTx>, second: seq<RemoteTx>, third: seq<RemoteTx>): (w: Widened)
    ensures 1 <= w.requests <= 3
    ensures w.requests >= 2 <==> rowCount > |first|
    ensures w.requests == 3 <==> rowCount > |first| && rowCount > |MergeFor(rule, first, second)|
    ensures w.requests == 1 ==> w.pool == first
    ensures w.requests == 2 ==> w.pool == MergeFor(rule, first, second)
    ensures w.requests == 3 ==> w.pool == MergeFor(rule, MergeFor(rule, first, second), third)
    ensures first <= w.pool
    ensures forall v :: v in w.pool ==>
              v in first || (w.requests >= 2 && v in second) || (w.requests == 3 && v in third)
    ensures rule.AsWritten? ==> forall v :: v in w.pool <==>
              v in first || (w.requests >= 2 && v in second) || (w.requests == 3 && v in third)
    ensures rule.Corrected? ==>
              Ids(w.pool) == Ids(first) + (if w.requests >= 2 then Ids(second) else {})
                                        + (if w.requests == 3 then Ids(third) else {})
  {
    var pool1 := first;
    var (pool2, n2) := if rowCount > |pool1| then (MergeFor(rule, pool1, second), 2) else (pool1, 1);
    if rowCount > |pool2| then Widened(MergeFor(rule, pool2, third), n2 + 1) else Widened(pool2, n2)
  }

  /** Corrected, the widened pool holds every record id at most once when
      each reply does. */
  lemma WidenKeepsIdsUnique(rowCount: nat, first: seq<RemoteTx>, second: seq<RemoteTx>, third: seq<RemoteTx>)
    requires UniqueIds(first) && UniqueIds(second) && UniqueIds(third)
    ensures UniqueIds(Widen(Corrected, rowCount, first, second, third).pool)
  {
    if rowCount > |first| {
      MergeByIdUniqueIds(first, second);
      MergeByIdUniqueIds(MergeById(first, second), third);
    }
  }

  // ---------------------------------------------------------------------
  // Matching one scraped row against the pool

  /** `pool.filter(remote => isSame(remote, scraped))`. */
  function MatchesOf(rule: Rule, cfg: Config, pool: seq<RemoteTx>, scraped: Split): (ms: seq<RemoteTx>)
    requires WellFormed(pool)
    ensures WellFormed(ms)
    ensures forall v :: v in ms <==> v in pool && IsSame(rule, cfg, v, scraped)
  {
    if |pool| == 0 then []
    else
      assert pool == [pool[0]] + pool[1..];
      (if IsSame(rule, cfg, pool[0], scraped) then [pool[0]] else []) + MatchesOf(rule, cfg, pool[1..], scraped)
  }

  /** The records of the pool that do not match, in pool order. */
  function NonMatchesOf(rule: Rule, cfg: Config, pool: seq<RemoteTx>, scraped: Split): (rest: seq<RemoteTx>)
    requires WellFormed(pool)
    ensures WellFormed(rest)
    ensures forall v :: v in rest <==> v in pool && !IsSame(rule, cfg, v, scraped)
  {
    if |pool| == 0 then []
    else
      assert pool == [pool[0]] + pool[1..];
      (if IsSame(rule, cfg, pool[0], scraped) then [] else [pool[0]]) + NonMatchesOf(rule, cfg, pool[1..], scraped)
  }

  /** `pool.filter(v => !matches.includes(v))`. */
  function Without(pool: seq<RemoteTx>, xs: seq<RemoteTx>): (r: seq<RemoteTx>)
    ensures forall v :: v in r <==> v in pool && v !in xs
  {
    if |pool| == 0 then []
    else
      assert pool == [pool[0]] + pool[1..];
      (if pool[0] in xs then [] else [pool[0]]) + Without(pool[1..], xs)
  }

  lemma WithoutCons(pool: seq<RemoteTx>, xs: seq<RemoteTx>)
    requires |pool| > 0
    ensures Without(pool, xs) == (if pool[0] in xs then [] else [pool[0]]) + Without(pool[1..], xs)
  {
  }

  /** Removal keeps at most the copies the pool holds. */
  lemma {:induction false} WithoutSubMultiset(pool: seq<RemoteTx>, xs: seq<RemoteTx>)
    ensures multiset(Without(pool, xs)) <= multiset(pool)
    decreases |pool|
  {
    if |pool| > 0 {
      var head := if pool[0] in xs then [] else [pool[0]];
      var tail := pool[1..];
      var rest := Without(tail, xs);
      assert Without(pool, xs) == head + rest by { WithoutCons(pool, xs); }
      assert multiset(rest) <= multiset(tail) by { WithoutSubMultiset(tail, xs); }
      assert multiset(pool) == multiset([pool[0]]) + multiset(tail) by {
        assert pool == [pool[0]] + tail;
      }
      assert multiset(head) <= multiset([pool[0]]);
      assert multiset(head + rest) == multiset(head) + multiset(rest);
    }
  }

  /** Removing records none of which is in the pool keeps the pool. */
  lemma {:induction false} WithoutKeepsAll(pool: seq<RemoteTx>, xs: seq<RemoteTx>)
    requires forall k :: 0 <= k < |pool| ==> pool[k] !in xs
    ensures Without(pool, xs) == pool
    decreases |pool|
  {
    if |pool| > 0 {
      WithoutCons(pool, xs);
      WithoutKeepsAll(pool[1..], xs);
      ConsSlice([pool[0]], pool[1..]);
    }
  }

  /** Removing every record that `includes` finds among the matches is
      keeping exactly the records that do not match. */
  lemma {:induction false} WithoutMatchesIsNonMatches(rule: Rule, cfg: Config, pool: seq<RemoteTx>,
                                                      xs: seq<RemoteTx>, scraped: Split)
    requires WellFormed(pool)
    requires forall v :: v in pool ==> (v in xs <==> IsSame(rule, cfg, v, scraped))
    ensures Without(pool, xs) == NonMatchesOf(rule, cfg, pool, scraped)
    decreases |pool|
  {
    if |pool| > 0 {
      assert pool == [pool[0]] + pool[1..];
      WithoutMatchesIsNonMatches(rule, cfg, pool[1..], xs, scraped);
    }
  }

  lemma {:induction false} NothingMatchesKeepsPool(rule: Rule, cfg: Config, pool: seq<RemoteTx>, scraped: Split)
    requires WellFormed(pool)
    requires forall k :: 0 <= k < |pool| ==> !IsSame(rule, cfg, pool[k], scraped)
    ensures NonMatchesOf(rule, cfg, pool, scraped) == pool
    decreases |pool|
  {
    if |pool| > 0 {
      NothingMatchesKeepsPool(rule, cfg, pool[1..], scraped);
      assert pool == [pool[0]] + pool[1..];
    }
  }

  /** The matches and the non-matches split the pool: every record copy is in
      exactly one of them. */
  lemma {:induction false} MatchesSplitPool(rule: Rule, cfg: Config, pool: seq<RemoteTx>, scraped: Split)
    requires WellFormed(pool)
    ensures multiset(pool) == multiset(MatchesOf(rule, cfg, pool, scraped)) + multiset(NonMatchesOf(rule, cfg, pool, scraped))
    decreases |pool|
  {
    if |pool| > 0 {
      assert pool == [pool[0]] + pool[1..];
      MatchesSplitPool(rule, cfg, pool[1..], scraped);
    }
  }

  // ---------------------------------------------------------------------
  // The filters keep pool order and every copy

  lemma WellFormedAppend(p: seq<RemoteTx>, q: seq<RemoteTx>)
    requires WellFormed(p) && WellFormed(q)
    ensures WellFormed(p + q)
    ensures |p| > 0 ==> WellFormed(p[1..])
  {
    assert forall v :: v in p + q ==> v in p || v in q;
    if |p| > 0 {
      assert forall v :: v in p[1..] ==> v in p;
    }
  }

  lemma MatchesOfCons(rule: Rule, cfg: Config, pool: seq<RemoteTx>, scraped: Split)
    requires WellFormed(pool) && |pool| > 0
    ensures WellFormed(pool[1..])
    ensures MatchesOf(rule, cfg, pool, scraped)
         == (if IsSame(rule, cfg, pool[0], scraped) then [pool[0]] else []) + MatchesOf(rule, cfg, pool[1..], scraped)
    ensures NonMatchesOf(rule, cfg, pool, scraped)
         == (if IsSame(rule, cfg, pool[0], scraped) then [] else [pool[0]]) + NonMatchesOf(rule, cfg, pool[1..], scraped)
  {
    WellFormedAppend(pool, []);
  }

  lemma MatchesOfSingle(rule: Rule, cfg: Config, p: seq<RemoteTx>, scraped: Split)
    requires WellFormed(p) && |p| == 1
    ensures MatchesOf(rule, cfg, p, scraped) == (if IsSame(rule, cfg, p[0], scraped) then p else [])
    ensures NonMatchesOf(rule, cfg, p, scraped) == (if IsSame(rule, cfg, p[0], scraped) then [] else p)
  {
    MatchesOfCons(rule, cfg, p, scraped);
    assert p[1..] == [] && p == [p[0]];
  }

  /** `filter` keeps order: the matches of a concatenation are the matches
      of each part in turn, and a single record is kept exactly when it
      matches. */
  lemma {:induction false} MatchesOfAppend(rule: Rule, cfg: Config, p: seq<RemoteTx>, q: seq<RemoteTx>, scraped: Split)
    requires WellFormed(p) && WellFormed(q)
    ensures WellFormed(p + q)
    ensures MatchesOf(rule, cfg, p + q, scraped) == MatchesOf(rule, cfg, p, scraped) + MatchesOf(rule, cfg, q, scraped)
    ensures |p| == 1 ==> MatchesOf(rule, cfg, p, scraped) == (if IsSame(rule, cfg, p[0], scraped) then p else [])
    decreases |p|
  {
    WellFormedAppend(p, q);
    if |p| == 0 {
      assert p + q == q;
    } else {
      var head := if IsSame(rule, cfg, p[0], scraped) then [p[0]] else [];
      WellFormedAppend(p[1..], q);
      var a := MatchesOf(rule, cfg, p[1..], scraped);
      var b := MatchesOf(rule, cfg, q, scraped);
      assert MatchesOf(rule, cfg, p, scraped) == head + a by {
        MatchesOfCons(rule, cfg, p, scraped);
      }
      assert MatchesOf(rule, cfg, p + q, scraped) == head + (a + b) by {
        ConsSlice(p, q);
        MatchesOfCons(rule, cfg, p + q, scraped);
        MatchesOfAppend(rule, cfg, p[1..], q, scraped);
      }
      ConcatAssoc(head, a, b);
      if |p| == 1 {
        MatchesOfSingle(rule, cfg, p, scraped);
      }
    }
  }

  /** The same for the records that do not match. */
  lemma {:induction false} NonMatchesOfAppend(rule: Rule, cfg: Config, p: seq<RemoteTx>, q: seq<RemoteTx>, scraped: Split)
    requires WellFormed(p) && WellFormed(q)
    ensures WellFormed(p + q)
    ensures NonMatchesOf(rule, cfg, p + q, scraped) == NonMatchesOf(rule, cfg, p, scraped) + NonMatchesOf(rule, cfg, q, scraped)
    ensures |p| == 1 ==> NonMatchesOf(rule, cfg, p, scraped) == (if IsSame(rule, cfg, p[0], scraped) then [] else p)
    decreases |p|
  {
    WellFormedAppend(p, q);
    if |p| == 0 {
      assert p + q == q;
    } else {
      var head := if IsSame(rule, cfg, p[0], scraped) then [] else [p[0]];
      WellFormedAppend(p[1..], q);
      var a := NonMatchesOf(rule, cfg, p[1..], scraped);
      var b := NonMatchesOf(rule, cfg, q, scraped);
      assert NonMatchesOf(rule, cfg, p, scraped) == head + a by {
        MatchesOfCons(rule, cfg, p, scraped);
      }
      assert NonMatchesOf(rule, cfg, p + q, scraped) == head + (a + b) by {
        ConsSlice(p, q);
        MatchesOfCons(rule, cfg, p + q, scraped);
        NonMatchesOfAppend(rule, cfg, p[1..], q, scraped);
      }
      ConcatAssoc(head, a, b);
      if |p| == 1 {
        MatchesOfSingle(rule, cfg, p, scraped);
      }
    }
  }

  /** `pool.filter(v => !xs.includes(v))` keeps order too. */
  lemma {:induction false} WithoutAppend(p: seq<RemoteTx>, q: seq<RemoteTx>, xs: seq<RemoteTx>)
    ensures Without(p + q, xs) == Without(p, xs) + Without(q, xs)
    ensures |p| == 1 ==> Without(p, xs) == (if p[0] in xs then [] else p)
    decreases |p|
  {
    if |p| == 0 {
      assert p + q == q;
    } else {
      var head := if p[0] in xs then [] else [p[0]];
      assert Without(p, xs) == head + Without(p[1..], xs) by {
        WithoutCons(p, xs);
      }
      assert Without(p + q, xs) == head + Without(p[1..] + q, xs) by {
        ConsSlice(p, q);
        WithoutCons(p + q, xs);
      }
      WithoutAppend(p[1..], q, xs);
      ConcatAssoc(head, Without(p[1..], xs), Without(q, xs));
      if |p| == 1 {
        assert p[1..] == [];
      }
    }
  }

  /** The fresh records of a reply keep the reply's order. */
  lemma FreshAppend(existing: seq<RemoteTx>, p: seq<RemoteTx>, q: seq<RemoteTx>)
    ensures Fresh(existing, p + q) == Fresh(existing, p) + Fresh(existing, q)
    ensures |p| == 1 ==> Fresh(existing, p) == (if p[0] in existing then [] else p)
  {
    WithoutAppend(p, q, existing);
  }

  // ---------------------------------------------------------------------
  // The matching loop

  /** The entry of scraped row `i`, with its display neighbours. */
  function RowMeta(splits: seq<Split>, i: nat): (m: MetaTx)
    requires i < |splits|
    ensures m.tx == splits[i] && m.txRow == Some(i)
    ensures m.prevRow == (if i > 0 then Some(i - 1) else None)
    ensures m.nextRow == (if i + 1 < |splits| then Some(i + 1) else None)
  {
    MetaTx(splits[i], Some(i), if i > 0 then Some(i - 1) else None, if i + 1 < |splits| then Some(i + 1) else None)
  }

  /** The state of the loop: the buckets so far and the unclaimed records. */
  datatype Pass = Pass(adder: Adder, pool: seq<RemoteTx>)

  /** One iteration for scraped row `i`: every record that matches leaves the
      pool; the first makes the row synced and the others become remote-only
      duplicates; with no match the row is local-only. */
  function Step(rule: Rule, cfg: Config, splits: seq<Split>, i: nat, st: Pass): (st': Pass)
    requires i < |splits| && WellFormed(st.pool)
    ensures WellFormed(st'.pool)
    ensures st'.pool == NonMatchesOf(rule, cfg, st.pool, splits[i])
    ensures st'.adder.accountNo == st.adder.accountNo
    ensures st.adder.synced <= st'.adder.synced && st.adder.localOnly <= st'.adder.localOnly
    ensures var k := |MatchesOf(rule, cfg, st.pool, splits[i])|;
            && (k > 0 ==> st'.adder.synced == st.adder.synced + [RowMeta(splits, i)]
                          && st'.adder.localOnly == st.adder.localOnly)
            && (k == 0 ==> st'.adder.localOnly == st.adder.localOnly + [RowMeta(splits, i)]
                           && st'.adder.synced == st.adder.synced)
            && |st'.adder.remoteOnly| == |st.adder.remoteOnly| + (if k > 1 then k - 1 else 0)
            && st.adder.remoteOnly <= st'.adder.remoteOnly
    ensures var ms := MatchesOf(rule, cfg, st.pool, splits[i]);
            forall d :: 1 <= d < |ms| ==>
              st'.adder.remoteOnly[|st.adder.remoteOnly| + d - 1] == DuplicateEntry(RowMeta(splits, i), ms[d])
  {
    var meta := RowMeta(splits, i);
    var matches := MatchesOf(rule, cfg, st.pool, splits[i]);
    var a1 := if |matches| > 1 then RegisterDuplicates(st.adder, meta, matches[1..]) else st.adder;
    if |matches| >= 1 then
      WithoutMatchesIsNonMatches(rule, cfg, st.pool, matches, splits[i]);
      Pass(RegisterSynced(a1, meta), Without(st.pool, matches))
    else
      assert forall k :: 0 <= k < |st.pool| ==> st.pool[k] in st.pool;
      NothingMatchesKeepsPool(rule, cfg, st.pool, splits[i]);
      Pass(RegisterLocalOnly(a1, meta), st.pool)
  }

  /** The loop over scraped rows `i..` in display order. Every row lands in
      exactly one of synced and local-only, the buckets only grow at their
      ends, the pool only shrinks, and what is left of it matches no row
      the loop visited. */
  function MatchRows(rule: Rule, cfg: Config, splits: seq<Split>, i: nat, st: Pass): (p: Pass)
    requires i <= |splits| && WellFormed(st.pool)
    ensures WellFormed(p.pool)
    ensures p.adder.accountNo == st.adder.accountNo
    ensures st.adder.synced <= p.adder.synced
    ensures st.adder.localOnly <= p.adder.localOnly
    ensures st.adder.remoteOnly <= p.adder.remoteOnly
    ensures |p.adder.synced| + |p.adder.localOnly| == |st.adder.synced| + |st.adder.localOnly| + |splits| - i
    decreases |splits| - i
  {
    if i == |splits| then st
    else MatchRows(rule, cfg, splits, i + 1, Step(rule, cfg, splits, i, st))
  }

  /** The loop only ever removes records from the pool. */
  lemma {:induction false} PoolShrinks(rule: Rule, cfg: Config, splits: seq<Split>, i: nat, st: Pass)
    requires i <= |splits| && WellFormed(st.pool)
    ensures multiset(MatchRows(rule, cfg, splits, i, st).pool) <= multiset(st.pool)
    decreases |splits| - i
  {
    if i < |splits| {
      var st1 := Step(rule, cfg, splits, i, st);
      PoolShrinks(rule, cfg, splits, i + 1, st1);
      MatchesSplitPool(rule, cfg, st.pool, splits[i]);
    }
  }

  /** A record left over after rows `i..` matches none of them. */
  lemma {:induction false} LeftoverMissesRow(rule: Rule, cfg: Config, splits: seq<Split>, i: nat, st: Pass,
                                             v: RemoteTx, j: int)
    requires i <= j < |splits| && WellFormed(st.pool)
    requires v in MatchRows(rule, cfg, splits, i, st).pool
    ensures v in st.pool && !IsSame(rule, cfg, v, splits[j])
    decreases |splits| - i
  {
    var st1 := Step(rule, cfg, splits, i, st);
    assert MatchRows(rule, cfg, splits, i, st) == MatchRows(rule, cfg, splits, i + 1, st1);
    if j == i {
      if i + 1 < |splits| {
        LeftoverMissesRow(rule, cfg, splits, i + 1, st1, v, i + 1);
      }
    } else {
      LeftoverMissesRow(rule, cfg, splits, i + 1, st1, v, j);
    }
  }

  /** What is left of the pool matches no row the loop visited: a leftover
      record is never a missed match. */
  lemma LeftoversMatchNoRow(rule: Rule, cfg: Config, splits: seq<Split>, i: nat, st: Pass)
    requires i <= |splits| && WellFormed(st.pool)
    ensures var p := MatchRows(rule, cfg, splits, i, st);
            forall v, j :: v in p.pool && i <= j < |splits| ==> !IsSame(rule, cfg, v, splits[j])
  {
    var p := MatchRows(rule, cfg, splits, i, st);
    forall v, j | v in p.pool && i <= j < |splits|
      ensures !IsSame(rule, cfg, v, splits[j])
    {
      LeftoverMissesRow(rule, cfg, splits, i, st, v, j);
    }
  }

  // ---------------------------------------------------------------------
  // Partition of the scraped rows

  function RowOf(m: MetaTx): int
  {
    if m.txRow.Some? then m.txRow.value else -1
  }

  function RowSet(ms: seq<MetaTx>): set<int>
  {
    set k | 0 <= k < |ms| :: RowOf(ms[k])
  }

  /** The entries are the entries of rows `lo..`, in strictly increasing
      display order. */
  predicate RowEntries(splits: seq<Split>, ms: seq<MetaTx>, lo: nat)
  {
    && (forall k :: 0 <= k < |ms| ==> lo <= RowOf(ms[k]) < |splits| && ms[k] == RowMeta(splits, RowOf(ms[k])))
    && (forall k, l :: 0 <= k < l < |ms| ==> RowOf(ms[k]) < RowOf(ms[l]))
  }

  lemma RowEntriesCons(splits: seq<Split>, i: nat, ms: seq<MetaTx>)
    requires i < |splits| && RowEntries(splits, ms, i + 1)
    ensures RowEntries(splits, [RowMeta(splits, i)] + ms, i)
    ensures RowSet([RowMeta(splits, i)] + ms) == {i} + RowSet(ms)
  {
    var ms' := [RowMeta(splits, i)] + ms;
    assert forall k :: 1 <= k < |ms'| ==> ms'[k] == ms[k - 1];
    forall x | x in RowSet(ms') ensures x in {i} + RowSet(ms) {
      var k :| 0 <= k < |ms'| && RowOf(ms'[k]) == x;
      if k > 0 {
        assert RowOf(ms[k - 1]) == x;
      }
    }
    forall x | x in {i} + RowSet(ms) ensures x in RowSet(ms') {
      if x == i {
        assert RowOf(ms'[0]) == x;
      } else {
        var k :| 0 <= k < |ms| && RowOf(ms[k]) == x;
        assert RowOf(ms'[k + 1]) == x;
      }
    }
  }

  lemma RowEntriesWeaken(splits: seq<Split>, ms: seq<MetaTx>, i: nat)
    requires RowEntries(splits, ms, i + 1)
    ensures RowEntries(splits, ms, i)
    ensures i !in RowSet(ms)
  {
  }

  /** The synced and local-only entries of rows `lo..` partition those rows:
      each row is in exactly one bucket, and each bucket is in display
      order. */
  predicate Partitioned(splits: seq<Split>, synced: seq<MetaTx>, localOnly: seq<MetaTx>, lo: nat)
  {
    && RowEntries(splits, synced, lo) && RowEntries(splits, localOnly, lo)
    && forall j :: lo <= j < |splits| ==> (j in RowSet(synced) <==> j !in RowSet(localOnly))
  }

  lemma PartitionedCons(splits: seq<Split>, i: nat, synced: seq<MetaTx>, localOnly: seq<MetaTx>)
    requires i < |splits| && Partitioned(splits, synced, localOnly, i + 1)
    ensures Partitioned(splits, [RowMeta(splits, i)] + synced, localOnly, i)
    ensures Partitioned(splits, synced, [RowMeta(splits, i)] + localOnly, i)
  {
    RowEntriesWeaken(splits, synced, i);
    RowEntriesWeaken(splits, localOnly, i);
    RowEntriesCons(splits, i, synced);
    RowEntriesCons(splits, i, localOnly);
  }

  lemma SliceAfterAppend<T>(a: seq<T>, x: T, c: seq<T>)
    requires a + [x] <= c
    ensures c[|a|..] == [x] + c[|a| + 1..]
  {
  }

  lemma SuffixThroughPrefix<T>(a: seq<T>, b: seq<T>, c: seq<T>)
    requires a <= b <= c
    ensures c[|a|..] == b[|a|..] + c[|b|..]
  {
  }

  /** What one iteration contributes to the synced and local-only entries
      from row `i` on: the row's entry at the front of exactly one of them. */
  lemma StepSlices(rule: Rule, cfg: Config, splits: seq<Split>, i: nat, st: Pass)
    requires i < |splits| && WellFormed(st.pool)
    ensures var st1 := Step(rule, cfg, splits, i, st);
            var p := MatchRows(rule, cfg, splits, i, st);
            var hit := |MatchesOf(rule, cfg, st.pool, splits[i])| > 0;
            && p == MatchRows(rule, cfg, splits, i + 1, st1)
            && p.adder.synced[|st.adder.synced|..]
               == (if hit then [RowMeta(splits, i)] else []) + p.adder.synced[|st1.adder.synced|..]
            && p.adder.localOnly[|st.adder.localOnly|..]
               == (if hit then [] else [RowMeta(splits, i)]) + p.adder.localOnly[|st1.adder.localOnly|..]
  {
    var st1 := Step(rule, cfg, splits, i, st);
    var p := MatchRows(rule, cfg, splits, i + 1, st1);
    assert p == MatchRows(rule, cfg, splits, i, st);
    SuffixThroughPrefix(st.adder.synced, st1.adder.synced, p.adder.synced);
    SuffixThroughPrefix(st.adder.localOnly, st1.adder.localOnly, p.adder.localOnly);
    if |MatchesOf(rule, cfg, st.pool, splits[i])| > 0 {
      assert st1.adder.synced[|st.adder.synced|..] == [RowMeta(splits, i)];
      assert st1.adder.localOnly[|st.adder.localOnly|..] == [];
    } else {
      assert st1.adder.localOnly[|st.adder.localOnly|..] == [RowMeta(splits, i)];
      assert st1.adder.synced[|st.adder.synced|..] == [];
    }
  }

  /** Every scraped row `i..` lands in exactly one of the synced and
      local-only buckets, once, and each bucket keeps display order. */
  lemma {:induction false} RowsPartitioned(rule: Rule, cfg: Config, splits: seq<Split>, i: nat, st: Pass)
    requires i <= |splits| && WellFormed(st.pool)
    ensures var p := MatchRows(rule, cfg, splits, i, st);
            Partitioned(splits, p.adder.synced[|st.adder.synced|..], p.adder.localOnly[|st.adder.localOnly|..], i)
    decreases |splits| - i
  {
    if i < |splits| {
      var st1 := Step(rule, cfg, splits, i, st);
      var p := MatchRows(rule, cfg, splits, i + 1, st1);
      var synced := p.adder.synced[|st1.adder.synced|..];
      var localOnly := p.adder.localOnly[|st1.adder.localOnly|..];
      var hit := |MatchesOf(rule, cfg, st.pool, splits[i])| > 0;
      assert Partitioned(splits, synced, localOnly, i + 1) by {
        RowsPartitioned(rule, cfg, splits, i + 1, st1);
      }
      assert Partitioned(splits, (if hit then [RowMeta(splits, i)] else []) + synced,
                         (if hit then [] else [RowMeta(splits, i)]) + localOnly, i) by {
        PartitionedCons(splits, i, synced, localOnly);
        assert [] + synced == synced && [] + localOnly == localOnly;
      }
      StepSlices(rule, cfg, splits, i, st);
    } else {
      var p := MatchRows(rule, cfg, splits, i, st);
      assert p.adder.synced[|st.adder.synced|..] == [] && p.adder.localOnly[|st.adder.localOnly|..] == [];
    }
  }

  // ---------------------------------------------------------------------
  // Who claims which record

  lemma RowSetAppend(a: seq<MetaTx>, b: seq<MetaTx>)
    ensures RowSet(a + b) == RowSet(a) + RowSet(b)
  {
    forall r | r in RowSet(a + b) ensures r in RowSet(a) + RowSet(b) {
      var k :| 0 <= k < |a + b| && RowOf((a + b)[k]) == r;
      if k >= |a| {
        assert RowOf(b[k - |a|]) == r;
      }
    }
    forall r | r in RowSet(a) + RowSet(b) ensures r in RowSet(a + b) {
      if r in RowSet(a) {
        var k :| 0 <= k < |a| && RowOf(a[k]) == r;
        assert RowOf((a + b)[k]) == r;
      } else {
        var k :| 0 <= k < |b| && RowOf(b[k]) == r;
        assert RowOf((a + b)[k + |a|]) == r;
      }
    }
  }

  /** The rows synced from `i` on are row `i`, when it has a match, and the
      rows synced from `i + 1` on. */
  lemma SyncedFromStep(rule: Rule, cfg: Config, splits: seq<Split>, i: nat, st: Pass)
    requires i < |splits| && WellFormed(st.pool)
    ensures var st1 := Step(rule, cfg, splits, i, st);
            var p := MatchRows(rule, cfg, splits, i, st);
            RowSet(p.adder.synced[|st.adder.synced|..])
            == (if |MatchesOf(rule, cfg, st.pool, splits[i])| > 0 then {i} else {})
               + RowSet(p.adder.synced[|st1.adder.synced|..])
  {
    var st1 := Step(rule, cfg, splits, i, st);
    var p := MatchRows(rule, cfg, splits, i, st);
    StepSlices(rule, cfg, splits, i, st);
    var head: seq<MetaTx> := if |MatchesOf(rule, cfg, st.pool, splits[i])| > 0 then [RowMeta(splits, i)] else [];
    RowSetAppend(head, p.adder.synced[|st1.adder.synced|..]);
    if head != [] {
      assert RowOf(head[0]) == i;
    }
  }

  /** Only rows `i..` are synced from `i` on. */
  lemma {:induction false} SyncedRowsInRange(rule: Rule, cfg: Config, splits: seq<Split>, i: nat, st: Pass)
    requires i <= |splits| && WellFormed(st.pool)
    ensures forall j :: j in RowSet(MatchRows(rule, cfg, splits, i, st).adder.synced[|st.adder.synced|..]) ==> i <= j < |splits|
    decreases |splits| - i
  {
    if i < |splits| {
      SyncedRowsInRange(rule, cfg, splits, i + 1, Step(rule, cfg, splits, i, st));
      SyncedFromStep(rule, cfg, splits, i, st);
    } else {
      assert MatchRows(rule, cfg, splits, i, st).adder.synced[|st.adder.synced|..] == [];
    }
  }

  /** A row is synced only if some record of the pool matches it. */
  lemma {:induction false} SyncedRowsHaveMatch(rule: Rule, cfg: Config, splits: seq<Split>, i: nat, st: Pass, j: int)
    requires i <= |splits| && WellFormed(st.pool)
    requires j in RowSet(MatchRows(rule, cfg, splits, i, st).adder.synced[|st.adder.synced|..])
    ensures 0 <= j < |splits|
    ensures exists v :: v in st.pool && IsSame(rule, cfg, v, splits[j])
    decreases |splits| - i
  {
    SyncedRowsInRange(rule, cfg, splits, i, st);
    var st1 := Step(rule, cfg, splits, i, st);
    if j != i {
      assert j in RowSet(MatchRows(rule, cfg, splits, i + 1, st1).adder.synced[|st1.adder.synced|..]) by {
        SyncedFromStep(rule, cfg, splits, i, st);
      }
      SyncedRowsHaveMatch(rule, cfg, splits, i + 1, st1, j);
      var v :| v in st1.pool && IsSame(rule, cfg, v, splits[j]);
      assert v in st.pool;
    } else {
      var ms := MatchesOf(rule, cfg, st.pool, splits[i]);
      assert |ms| > 0 by {
        SyncedFromStep(rule, cfg, splits, i, st);
        SyncedRowsInRange(rule, cfg, splits, i + 1, st1);
      }
      assert ms[0] in ms;
    }
  }

  /** Earlier rows win: a record of the pool that matches row `j` is
      claimed by `j` itself or by an earlier synced row. */
  lemma {:induction false} EarlierRowsWin(rule: Rule, cfg: Config, splits: seq<Split>, i: nat, st: Pass,
                                          v: RemoteTx, j: nat)
    requires i <= j < |splits| && WellFormed(st.pool)
    requires v in st.pool && IsSame(rule, cfg, v, splits[j])
    ensures var synced := MatchRows(rule, cfg, splits, i, st).adder.synced[|st.adder.synced|..];
            exists j' :: i <= j' <= j && j' in RowSet(synced) && IsSame(rule, cfg, v, splits[j'])
    decreases |splits| - i
  {
    var p := MatchRows(rule, cfg, splits, i, st);
    var synced := p.adder.synced[|st.adder.synced|..];
    if IsSame(rule, cfg, v, splits[i]) {
      assert i in RowSet(synced) by {
        ClaimedHere(rule, cfg, splits, i, st, v);
      }
    } else {
      var st1 := Step(rule, cfg, splits, i, st);
      var rest := MatchRows(rule, cfg, splits, i + 1, st1).adder.synced[|st1.adder.synced|..];
      assert exists j' :: i + 1 <= j' <= j && j' in RowSet(rest) && IsSame(rule, cfg, v, splits[j']) by {
        assert v in st1.pool;
        EarlierRowsWin(rule, cfg, splits, i + 1, st1, v, j);
      }
      var j' :| i + 1 <= j' <= j && j' in RowSet(rest) && IsSame(rule, cfg, v, splits[j']);
      assert j' in RowSet(synced) by {
        SyncedGrowsFromStep(rule, cfg, splits, i, st, j');
      }
    }
  }

  /** A row that some pool record matches is synced. */
  lemma ClaimedHere(rule: Rule, cfg: Config, splits: seq<Split>, i: nat, st: Pass, v: RemoteTx)
    requires i < |splits| && WellFormed(st.pool)
    requires v in st.pool && IsSame(rule, cfg, v, splits[i])
    ensures i in RowSet(MatchRows(rule, cfg, splits, i, st).adder.synced[|st.adder.synced|..])
  {
    var p := MatchRows(rule, cfg, splits, i, st);
    var st1 := Step(rule, cfg, splits, i, st);
    assert p == MatchRows(rule, cfg, splits, i + 1, st1);
    assert v in MatchesOf(rule, cfg, st.pool, splits[i]);
    SliceAfterAppend(st.adder.synced, RowMeta(splits, i), p.adder.synced);
    assert RowOf(p.adder.synced[|st.adder.synced|..][0]) == i;
  }

  /** The rows synced from `i + 1` on are among those synced from `i` on. */
  lemma SyncedGrowsFromStep(rule: Rule, cfg: Config, splits: seq<Split>, i: nat, st: Pass, j: int)
    requires i < |splits| && WellFormed(st.pool)
    requires j in RowSet(MatchRows(rule, cfg, splits, i + 1, Step(rule, cfg, splits, i, st)).adder.synced
                           [|Step(rule, cfg, splits, i, st).adder.synced|..])
    ensures j in RowSet(MatchRows(rule, cfg, splits, i, st).adder.synced[|st.adder.synced|..])
  {
    SyncedFromStep(rule, cfg, splits, i, st);
  }

  /** The records the loop claims, row by row: each row's matches. */
  ghost function Claimed(rule: Rule, cfg: Config, splits: seq<Split>, i: nat, pool: seq<RemoteTx>): seq<RemoteTx>
    requires i <= |splits| && WellFormed(pool)
    decreases |splits| - i
  {
    if i == |splits| then []
    else MatchesOf(rule, cfg, pool, splits[i]) + Claimed(rule, cfg, splits, i + 1, NonMatchesOf(rule, cfg, pool, splits[i]))
  }

  /** No record copy is claimed twice or lost: the claimed records and the
      leftovers together are exactly the pool. */
  lemma {:induction false} ClaimsConserveRecords(rule: Rule, cfg: Config, splits: seq<Split>, i: nat, st: Pass)
    requires i <= |splits| && WellFormed(st.pool)
    ensures multiset(st.pool)
         == multiset(Claimed(rule, cfg, splits, i, st.pool)) + multiset(MatchRows(rule, cfg, splits, i, st).pool)
    decreases |splits| - i
  {
    if i < |splits| {
      var st1 := Step(rule, cfg, splits, i, st);
      var ms := MatchesOf(rule, cfg, st.pool, splits[i]);
      var later := Claimed(rule, cfg, splits, i + 1, st1.pool);
      ClaimsConserveRecords(rule, cfg, splits, i + 1, st1);
      MatchesSplitPool(rule, cfg, st.pool, splits[i]);
      assert Claimed(rule, cfg, splits, i, st.pool) == ms + later;
      assert MatchRows(rule, cfg, splits, i, st) == MatchRows(rule, cfg, splits, i + 1, st1);
      assert multiset(ms + later) == multiset(ms) + multiset(later);
    }
  }

  // ---------------------------------------------------------------------
  // Order stability

  /** Whether a row has a match, and which records outlive it, depend only
      on which records the pool holds, not on their order. */
  lemma SameRecordsSameHit(rule: Rule, cfg: Config, s: seq<RemoteTx>, t: seq<RemoteTx>, scraped: Split)
    requires WellFormed(s) && WellFormed(t)
    requires forall v :: v in s <==> v in t
    ensures |MatchesOf(rule, cfg, s, scraped)| > 0 <==> |MatchesOf(rule, cfg, t, scraped)| > 0
    ensures forall v :: v in NonMatchesOf(rule, cfg, s, scraped) <==> v in NonMatchesOf(rule, cfg, t, scraped)
  {
    var ms := MatchesOf(rule, cfg, s, scraped);
    var mt := MatchesOf(rule, cfg, t, scraped);
    if |ms| > 0 {
      assert ms[0] in ms && ms[0] in mt;
    }
    if |mt| > 0 {
      assert mt[0] in mt && mt[0] in ms;
    }
  }

  /** The matching loop is order-stable: two pools holding the same records
      in any order, with the same rows already classified, classify every
      further row the same way and leave the same records over. */
  lemma {:induction false} OrderStable(rule: Rule, cfg: Config, splits: seq<Split>, i: nat, s: Pass, t: Pass)
    requires i <= |splits| && WellFormed(s.pool) && WellFormed(t.pool)
    requires forall v :: v in s.pool <==> v in t.pool
    requires s.adder.synced == t.adder.synced && s.adder.localOnly == t.adder.localOnly
    ensures var ps := MatchRows(rule, cfg, splits, i, s);
            var pt := MatchRows(rule, cfg, splits, i, t);
            && ps.adder.synced == pt.adder.synced
            && ps.adder.localOnly == pt.adder.localOnly
            && forall v :: v in ps.pool <==> v in pt.pool
    decreases |splits| - i
  {
    if i < |splits| {
      var s1 := Step(rule, cfg, splits, i, s);
      var t1 := Step(rule, cfg, splits, i, t);
      assert s1.adder.synced == t1.adder.synced && s1.adder.localOnly == t1.adder.localOnly
          && forall v :: v in s1.pool <==> v in t1.pool by {
        SameRecordsSameHit(rule, cfg, s.pool, t.pool, splits[i]);
      }
      assert MatchRows(rule, cfg, splits, i, s) == MatchRows(rule, cfg, splits, i + 1, s1);
      assert MatchRows(rule, cfg, splits, i, t) == MatchRows(rule, cfg, splits, i + 1, t1);
      OrderStable(rule, cfg, splits, i + 1, s1, t1);
    }
  }

  // ---------------------------------------------------------------------
  // The remote-only tail

  /** The records whose first split is dated strictly after `after`, in pool
      order. */
  function LateRecords(pool: seq<RemoteTx>, after: int): (late: seq<RemoteTx>)
    requires WellFormed(pool)
    ensures WellFormed(late)
    ensures forall v :: v in late <==> v in pool && v.splits[0].date > after
    ensures multiset(late) <= multiset(pool)
    decreases |pool|
  {
    if |pool| == 0 then []
    else
      assert pool == [pool[0]] + pool[1..];
      (if pool[0].splits[0].date > after then [pool[0]] else []) + LateRecords(pool[1..], after)
  }

  /** The late records keep pool order, like every `filter`. */
  lemma {:induction false} LateRecordsAppend(p: seq<RemoteTx>, q: seq<RemoteTx>, after: int)
    requires WellFormed(p) && WellFormed(q)
    ensures WellFormed(p + q)
    ensures LateRecords(p + q, after) == LateRecords(p, after) + LateRecords(q, after)
    ensures |p| == 1 ==> LateRecords(p, after) == (if p[0].splits[0].date > after then p else [])
    decreases |p|
  {
    WellFormedAppend(p, q);
    if |p| == 0 {
      assert p + q == q;
    } else {
      var head := if p[0].splits[0].date > after then [p[0]] else [];
      WellFormedAppend(p[1..], q);
      assert LateRecords(p, after) == head + LateRecords(p[1..], after) by {
        LateRecordsCons(p, after);
      }
      assert LateRecords(p + q, after) == head + LateRecords(p[1..] + q, after) by {
        ConsSlice(p, q);
        LateRecordsCons(p + q, after);
      }
      LateRecordsAppend(p[1..], q, after);
      ConcatAssoc(head, LateRecords(p[1..], after), LateRecords(q, after));
      if |p| == 1 {
        assert p[1..] == [];
      }
    }
  }

  lemma LateRecordsCons(pool: seq<RemoteTx>, after: int)
    requires WellFormed(pool) && |pool| > 0
    ensures WellFormed(pool[1..])
    ensures LateRecords(pool, after)
         == (if pool[0].splits[0].date > after then [pool[0]] else []) + LateRecords(pool[1..], after)
  {
    WellFormedAppend(pool, []);
  }

  /** A late record keeps every copy the pool holds of it. */
  lemma {:induction false} LateRecordsCopies(pool: seq<RemoteTx>, after: int, v: RemoteTx)
    requires WellFormed(pool)
    ensures multiset(LateRecords(pool, after))[v]
         == (if v in pool && v.splits[0].date > after then multiset(pool)[v] else 0)
    decreases |pool|
  {
    if |pool| > 0 {
      var rest := pool[1..];
      assert pool == [pool[0]] + rest;
      var head := if pool[0].splits[0].date > after then [pool[0]] else [];
      assert LateRecords(pool, after) == head + LateRecords(rest, after);
      LateRecordsCopies(rest, after, v);
      assert multiset(LateRecords(pool, after))[v] == multiset(head)[v] + multiset(LateRecords(rest, after))[v];
      assert multiset(pool)[v] == multiset([pool[0]])[v] + multiset(rest)[v];
    }
  }

  /** `Array.from(txs).reverse().find(x => x.date >= d)`: the last row, in
      display order, dated on or after `d`. */
  function Anchor(splits: seq<Split>, d: int): (k: Option<nat>)
    ensures k.Some? ==> k.value < |splits| && splits[k.value].date >= d
    ensures k.Some? ==> forall j :: k.value < j < |splits| ==> splits[j].date < d
    ensures k.None? ==> forall j :: 0 <= j < |splits| ==> splits[j].date < d
    decreases |splits|
  {
    if |splits| == 0 then None
    else if splits[|splits| - 1].date >= d then Some(|splits| - 1)
    else Anchor(splits[..|splits| - 1], d)
  }

  /** The entry of a late record: its first split tagged with the record's
      id, no row of its own, anchored to the row `Anchor` finds or, when
      there is none, to the first row. */
  function TailEntry(splits: seq<Split>, v: RemoteTx): (m: MetaTx)
    requires |splits| > 0 && |v.splits| > 0
    ensures m.tx == v.splits[0].(remoteId := Some(v.id)) && m.txRow.None?
    ensures m.prevRow.Some? <==> m.nextRow.None?
    ensures m.nextRow.Some? ==> m.nextRow == Some(0)
  {
    var prev := Anchor(splits, v.splits[0].date);
    MetaTx(v.splits[0].(remoteId := Some(v.id)), None, prev, if prev.Some? then None else Some(0))
  }

  /** The entries of the leftover records dated after the last row. */
  function Tail(splits: seq<Split>, pool: seq<RemoteTx>): (ts: seq<MetaTx>)
    requires |splits| > 0 && WellFormed(pool)
    ensures |ts| == |LateRecords(pool, splits[|splits| - 1].date)|
    ensures forall k :: 0 <= k < |ts| ==> ts[k].txRow.None? && ts[k].tx.date > splits[|splits| - 1].date
  {
    var late := LateRecords(pool, splits[|splits| - 1].date);
    assert forall k :: 0 <= k < |late| ==> late[k] in late;
    seq(|late|, k requires 0 <= k < |late| => TailEntry(splits, late[k]))
  }

  /** The tail keeps pool order: it distributes over concatenation, and a
      single record gives its entry exactly when it is late. With
      `RegisterAll` and `Present` this fixes the order of the remote-only
      rows on the page. */
  lemma TailAppend(splits: seq<Split>, p: seq<RemoteTx>, q: seq<RemoteTx>)
    requires |splits| > 0 && WellFormed(p) && WellFormed(q)
    ensures WellFormed(p + q)
    ensures Tail(splits, p + q) == Tail(splits, p) + Tail(splits, q)
    ensures |p| == 1 ==>
              Tail(splits, p) == if p[0].splits[0].date > splits[|splits| - 1].date
                                 then [TailEntry(splits, p[0])] else []
  {
    var after := splits[|splits| - 1].date;
    LateRecordsAppend(p, q, after);
    var lp, lq := LateRecords(p, after), LateRecords(q, after);
    var a, b, c := Tail(splits, p), Tail(splits, q), Tail(splits, p + q);
    forall k | 0 <= k < |c| ensures c[k] == (a + b)[k] {
      assert c[k] == TailEntry(splits, (lp + lq)[k]);
      if k < |a| {
        assert a[k] == TailEntry(splits, lp[k]);
      } else {
        assert b[k - |a|] == TailEntry(splits, lq[k - |a|]);
      }
    }
    if |p| == 1 && p[0].splits[0].date > after {
      assert a[0] == TailEntry(splits, lp[0]);
    }
  }

  /** Every tail entry shows a record of the pool dated after the last row,
      and is anchored to exactly one row: a row dated on or after it with
      every later row older, which is never the bottom row, or else the
      top row when every row is older. */
  lemma TailAnchors(splits: seq<Split>, pool: seq<RemoteTx>, k: int)
    requires |splits| > 0 && WellFormed(pool)
    requires 0 <= k < |Tail(splits, pool)|
    ensures var m := Tail(splits, pool)[k];
            && m.txRow.None?
            && (exists v :: v in pool && m.tx == v.splits[0].(remoteId := Some(v.id))
                            && v.splits[0].date > splits[|splits| - 1].date)
            && (m.prevRow.Some? <==> m.nextRow.None?)
            && (m.prevRow.Some? ==>
                  && m.prevRow.value < |splits| - 1
                  && splits[m.prevRow.value].date >= m.tx.date
                  && forall j :: m.prevRow.value < j < |splits| ==> splits[j].date < m.tx.date)
            && (m.nextRow.Some? ==>
                  && m.nextRow == Some(0)
                  && forall j :: 0 <= j < |splits| ==> splits[j].date < m.tx.date)
  {
    var late := LateRecords(pool, splits[|splits| - 1].date);
    assert late[k] in late;
  }

  /** Every leftover record dated after the last row has an entry. */
  lemma TailComplete(splits: seq<Split>, pool: seq<RemoteTx>, v: RemoteTx)
    requires |splits| > 0 && WellFormed(pool)
    requires v in pool && v.splits[0].date > splits[|splits| - 1].date
    ensures exists k :: 0 <= k < |Tail(splits, pool)| && Tail(splits, pool)[k] == TailEntry(splits, v)
  {
    var late := LateRecords(pool, splits[|splits| - 1].date);
    var k :| 0 <= k < |late| && late[k] == v;
    assert Tail(splits, pool)[k] == TailEntry(splits, v);
  }

  /** `forEach(v => adder.registerRemoteOnly(v))`. */
  function RegisterAll(a: Adder, ms: seq<MetaTx>): (b: Adder)
    ensures b.remoteOnly == a.remoteOnly + ms
    ensures b.synced == a.synced && b.localOnly == a.localOnly && b.accountNo == a.accountNo
    decreases |ms|
  {
    if |ms| == 0 then a
    else
      assert a.remoteOnly + ms == a.remoteOnly + [ms[0]] + ms[1..];
      RegisterAll(RegisterRemoteOnly(a, ms[0]), ms[1..])
  }

  // ---------------------------------------------------------------------
  // The whole scan

  /** The buckets a scan of non-empty page rows builds from a widened pool:
      the matching loop, then the tail. */
  function Classify(rule: Rule, cfg: Config, accountNo: string, splits: seq<Split>, pool: seq<RemoteTx>): (a: Adder)
    requires |splits| > 0 && WellFormed(pool)
    ensures a.accountNo == accountNo
    ensures |a.synced| + |a.localOnly| == |splits|
  {
    var p := MatchRows(rule, cfg, splits, 0, Pass(NewAdder(accountNo), pool));
    RegisterAll(p.adder, Tail(splits, p.pool))
  }

  /** The records the matching loop leaves for the tail. */
  function Leftovers(rule: Rule, cfg: Config, accountNo: string, splits: seq<Split>, pool: seq<RemoteTx>): (left: seq<RemoteTx>)
    requires WellFormed(pool)
    ensures WellFormed(left)
  {
    MatchRows(rule, cfg, splits, 0, Pass(NewAdder(accountNo), pool)).pool
  }

  /** Every row is in exactly one of synced and local-only, each in display
      order. */
  lemma ClassifyPartitions(rule: Rule, cfg: Config, accountNo: string, splits: seq<Split>, pool: seq<RemoteTx>)
    requires |splits| > 0 && WellFormed(pool)
    ensures var a := Classify(rule, cfg, accountNo, splits, pool);
            Partitioned(splits, a.synced, a.localOnly, 0)
  {
    var st := Pass(NewAdder(accountNo), pool);
    var p := MatchRows(rule, cfg, splits, 0, st);
    RowsPartitioned(rule, cfg, splits, 0, st);
    assert p.adder.synced[0..] == p.adder.synced && p.adder.localOnly[0..] == p.adder.localOnly;
  }

  /** A row is synced only when some record matches it. */
  lemma ClassifySyncedHaveMatch(rule: Rule, cfg: Config, accountNo: string, splits: seq<Split>,
                                pool: seq<RemoteTx>, j: int)
    requires |splits| > 0 && WellFormed(pool)
    requires j in RowSet(Classify(rule, cfg, accountNo, splits, pool).synced)
    ensures 0 <= j < |splits| && exists v :: v in pool && IsSame(rule, cfg, v, splits[j])
  {
    var st := Pass(NewAdder(accountNo), pool);
    var p := MatchRows(rule, cfg, splits, 0, st);
    assert p.adder.synced[0..] == p.adder.synced;
    SyncedRowsHaveMatch(rule, cfg, splits, 0, st, j);
  }

  /** A record that matches a row is claimed by that row or an earlier
      synced row. */
  lemma ClassifyEarlierRowsWin(rule: Rule, cfg: Config, accountNo: string, splits: seq<Split>,
                               pool: seq<RemoteTx>, v: RemoteTx, j: nat)
    requires j < |splits| && WellFormed(pool)
    requires v in pool && IsSame(rule, cfg, v, splits[j])
    ensures exists j' :: 0 <= j' <= j && j' in RowSet(Classify(rule, cfg, accountNo, splits, pool).synced)
                         && IsSame(rule, cfg, v, splits[j'])
  {
    var st := Pass(NewAdder(accountNo), pool);
    var p := MatchRows(rule, cfg, splits, 0, st);
    assert p.adder.synced[0..] == p.adder.synced;
    EarlierRowsWin(rule, cfg, splits, 0, st, v, j);
  }

  /** The remote-only bucket ends with the tail of the leftovers, which are
      records of the pool that match no row. */
  lemma ClassifyTail(rule: Rule, cfg: Config, accountNo: string, splits: seq<Split>, pool: seq<RemoteTx>)
    requires |splits| > 0 && WellFormed(pool)
    ensures var a := Classify(rule, cfg, accountNo, splits, pool);
            var left := Leftovers(rule, cfg, accountNo, splits, pool);
            && a.remoteOnly[|a.remoteOnly| - |Tail(splits, left)|..] == Tail(splits, left)
            && multiset(left) <= multiset(pool)
            && forall v, j :: v in left && 0 <= j < |splits| ==> !IsSame(rule, cfg, v, splits[j])
  {
    var st := Pass(NewAdder(accountNo), pool);
    PoolShrinks(rule, cfg, splits, 0, st);
    LeftoversMatchNoRow(rule, cfg, splits, 0, st);
  }

  /** A scan's row classification does not depend on the order in which
      the ledger returned its records: pools holding the same records give
      the same synced and local-only buckets. */
  lemma ClassifyOrderStable(rule: Rule, cfg: Config, accountNo: string, splits: seq<Split>,
                            pool: seq<RemoteTx>, pool': seq<RemoteTx>)
    requires |splits| > 0 && WellFormed(pool) && WellFormed(pool')
    requires forall v :: v in pool <==> v in pool'
    ensures var a := Classify(rule, cfg, accountNo, splits, pool);
            var b := Classify(rule, cfg, accountNo, splits, pool');
            a.synced == b.synced && a.localOnly == b.localOnly
  {
    OrderStable(rule, cfg, splits, 0, Pass(NewAdder(accountNo), pool), Pass(NewAdder(accountNo), pool'));
  }

  /** On a one-row page the row is synced exactly when the one record
      matches it. */
  lemma ClassifyOneRow(rule: Rule, cfg: Config, accountNo: string, s: Split, v: RemoteTx)
    requires |v.splits| > 0
    ensures var a := Classify(rule, cfg, accountNo, [s], [v]);
            && (IsSame(rule, cfg, v, s) ==> |a.synced| == 1 && a.localOnly == [])
            && (!IsSame(rule, cfg, v, s) ==> a.synced == [] && |a.localOnly| == 1)
  {
    var st := Pass(NewAdder(accountNo), [v]);
    assert [v][1..] == [] && MatchesOf(rule, cfg, [], s) == [];
    var ms := MatchesOf(rule, cfg, [v], s);
    assert ms == (if IsSame(rule, cfg, v, s) then [v] else []);
    var st1 := Step(rule, cfg, [s], 0, st);
    assert MatchRows(rule, cfg, [s], 0, st) == MatchRows(rule, cfg, [s], 1, st1) == st1;
  }

  /** From an empty pool the loop records no duplicate. */
  lemma {:induction false} EmptyPoolAddsNoDuplicates(rule: Rule, cfg: Config, splits: seq<Split>, i: nat, st: Pass)
    requires i <= |splits| && st.pool == []
    ensures var p := MatchRows(rule, cfg, splits, i, st);
            p.pool == [] && p.adder.remoteOnly == st.adder.remoteOnly
    decreases |splits| - i
  {
    if i < |splits| {
      var st1 := Step(rule, cfg, splits, i, st);
      assert st1.pool == [] && st1.adder.remoteOnly == st.adder.remoteOnly;
      EmptyPoolAddsNoDuplicates(rule, cfg, splits, i + 1, st1);
    }
  }

  /** The first step of the loop over a pool holding a matching record and
      a second object of the same record: the row is synced and the second
      object becomes its duplicate. */
  lemma TwiceHeldRecordStep(rule: Rule, cfg: Config, accountNo: string, splits: seq<Split>, r: RemoteTx, again: RemoteTx)
    requires |splits| > 0 && |r.splits| > 0 && again.splits == r.splits && again.id == r.id
    requires IsSame(rule, cfg, r, splits[0])
    ensures var a := MatchRows(rule, cfg, splits, 0, Pass(NewAdder(accountNo), [r, again])).adder;
            && |a.synced| > 0 && a.synced[0] == RowMeta(splits, 0)
            && |a.remoteOnly| > 0 && a.remoteOnly[0] == DuplicateEntry(RowMeta(splits, 0), again)
  {
    var st := Pass(NewAdder(accountNo), [r, again]);
    assert IsSame(rule, cfg, again, splits[0]);
    assert MatchesOf(rule, cfg, [r, again], splits[0]) == [r, again] by {
      MatchesOfCons(rule, cfg, [r, again], splits[0]);
      assert [r, again][1..] == [again];
      MatchesOfSingle(rule, cfg, [again], splits[0]);
    }
    var st1 := Step(rule, cfg, splits, 0, st);
    assert MatchRows(rule, cfg, splits, 0, st) == MatchRows(rule, cfg, splits, 1, st1);
  }

  /** As written, a record the first reply holds comes back in the
      overlapping second window as another object; the identity test keeps
      both, so the record matches its row twice and the second copy is a
      remote-only duplicate whose delete button targets the very record the
      row is synced with. */
  lemma RefetchedRecordDuplicatesItself(cfg: Config, accountNo: string, splits: seq<Split>, r: RemoteTx, o: nat)
    requires |splits| >= 2 && |r.splits| > 0 && o != r.obj
    requires IsSame(AsWritten, cfg, r, splits[0])
    ensures var again := r.(obj := o);
            var w := Widen(AsWritten, |splits|, [r], [again], []);
            && w.pool == [r, again]
            && var a := Classify(AsWritten, cfg, accountNo, splits, w.pool);
            && |a.synced| > 0 && a.synced[0] == RowMeta(splits, 0)
            && |a.remoteOnly| > 0 && a.remoteOnly[0] == DuplicateEntry(RowMeta(splits, 0), again)
            && a.remoteOnly[0].tx.remoteId == Some(r.id)
  {
    var again := r.(obj := o);
    var w := Widen(AsWritten, |splits|, [r], [again], []);
    assert w.pool == [r, again] by {
      assert again !in [r];
      MergeOfFreshReplies([r], [again]);
      MergeOfFreshReplies([r, again], []);
    }
    var p := MatchRows(AsWritten, cfg, splits, 0, Pass(NewAdder(accountNo), w.pool));
    assert |p.adder.synced| > 0 && p.adder.synced[0] == RowMeta(splits, 0)
        && |p.adder.remoteOnly| > 0 && p.adder.remoteOnly[0] == DuplicateEntry(RowMeta(splits, 0), again) by {
      TwiceHeldRecordStep(AsWritten, cfg, accountNo, splits, r, again);
    }
    var a := Classify(AsWritten, cfg, accountNo, splits, w.pool);
    assert a == RegisterAll(p.adder, Tail(splits, p.pool));
  }

  /** Corrected, the refetched record is merged away by its id: the row is
      synced and no remote-only entry appears at all. */
  lemma RefetchedRecordMatchedOnce(cfg: Config, accountNo: string, splits: seq<Split>, r: RemoteTx, o: nat)
    requires |splits| >= 2 && |r.splits| > 0 && o != r.obj
    requires IsSame(Corrected, cfg, r, splits[0])
    ensures var again := r.(obj := o);
            var w := Widen(Corrected, |splits|, [r], [again], []);
            && w.pool == [r]
            && var a := Classify(Corrected, cfg, accountNo, splits, w.pool);
            && |a.synced| > 0 && a.synced[0] == RowMeta(splits, 0)
            && a.remoteOnly == []
  {
    var again := r.(obj := o);
    assert r.id in Ids([r]);
    assert FreshIds([r], [again]) == [] by {
      assert [again][1..] == [];
    }
    assert MergeById([r], []) == [r];
    var st := Pass(NewAdder(accountNo), [r]);
    assert MatchesOf(Corrected, cfg, [r], splits[0]) == [r]
        && NonMatchesOf(Corrected, cfg, [r], splits[0]) == [] by {
      MatchesOfSingle(Corrected, cfg, [r], splits[0]);
    }
    var st1 := Step(Corrected, cfg, splits, 0, st);
    assert MatchRows(Corrected, cfg, splits, 0, st) == MatchRows(Corrected, cfg, splits, 1, st1);
    EmptyPoolAddsNoDuplicates(Corrected, cfg, splits, 1, st1);
    var p := MatchRows(Corrected, cfg, splits, 1, st1);
    assert LateRecords([], splits[|splits| - 1].date) == [];
    assert Tail(splits, p.pool) == [];
  }

  datatype ScanError = PageNotReady | EmptyPage | MalformedRemote

  /** What a scan did: the messages it sent, in order, the page's
      already-scraped guard afterwards, and the buckets it built, or why it
      stopped. */
  datatype ScanRun = ScanRun(effects: seq<Effect>, guard: bool, outcome: Result<Adder, ScanError>)

  /** The `list_transactions` requests of a scan that fetched `count`
      times: the first window ends at the first row's date, every widening
      one at the middle row's, `Math.floor(n / 2)`. */
  function Requests(cfg: Config, acct: Account, splits: seq<Split>, count: nat): (effects: seq<Effect>)
    requires |splits| > 0 && count >= 1
    ensures |effects| == count
    ensures effects[0] == ListTransactions(acct.id, splits[0].date, cfg.transactionsPerPage)
    ensures forall k :: 1 <= k < count ==>
              effects[k] == ListTransactions(acct.id, splits[|splits| / 2].date, cfg.transactionsPerPage)
  {
    [ListTransactions(acct.id, splits[0].date, cfg.transactionsPerPage)]
    + seq(count - 1, k => ListTransactions(acct.id, splits[|splits| / 2].date, cfg.transactionsPerPage))
  }

  /** `doScan`, up to `processAll`. The account is the one the page
      resolves; `first`, `second` and `third` are the replies the remote
      ledger gives to the `list_transactions` requests, consumed in order. A
      page still loading stops the scan before the guard is set; a page with
      no rows, or a record without splits, stops it after. */
  function Scan(rule: Rule, cfg: Config, guard: bool, acct: Account, page: Extraction,
                first: seq<RemoteTx>, second: seq<RemoteTx>, third: seq<RemoteTx>): (run: ScanRun)
    ensures run.outcome == Failure(PageNotReady) <==> page.StillLoading?
    ensures page.StillLoading? ==> run.effects == [ListAccounts] && run.guard == guard
    ensures page.Rendered? ==> run.guard
    ensures run.outcome == Failure(EmptyPage) <==> page.Rendered? && |page.rows| == 0
    ensures run.outcome == Failure(EmptyPage) ==> run.effects == [ListAccounts]
    ensures page.Rendered? && |page.rows| > 0 ==>
              var splits := ScrapePage(cfg, acct, page.rows);
              var w := Widen(rule, |splits|, first, second, third);
              && run.effects == [ListAccounts] + Requests(cfg, acct, splits, w.requests)
              && (run.outcome == Failure(MalformedRemote) <==> !WellFormed(w.pool))
              && (WellFormed(w.pool) ==> run.outcome == Success(Classify(rule, cfg, acct.id, splits, w.pool)))
  {
    if page.StillLoading? then ScanRun([ListAccounts], guard, Failure(PageNotReady))
    else
      var splits := ScrapePage(cfg, acct, page.rows);
      if |splits| == 0 then ScanRun([ListAccounts], true, Failure(EmptyPage))
      else
        var w := Widen(rule, |splits|, first, second, third);
        var effects := [ListAccounts] + Requests(cfg, acct, splits, w.requests);
        if !WellFormed(w.pool) then ScanRun(effects, true, Failure(MalformedRemote))
        else ScanRun(effects, true, Success(Classify(rule, cfg, acct.id, splits, w.pool)))
  }

  /** A scan only asks: its messages are the account list and then
      transaction lists, and it stores nothing. */
  lemma ScanOnlyQueries(rule: Rule, cfg: Config, guard: bool, acct: Account, page: Extraction,
                        first: seq<RemoteTx>, second: seq<RemoteTx>, third: seq<RemoteTx>)
    ensures var run := Scan(rule, cfg, guard, acct, page, first, second, third);
            && |run.effects| >= 1 && run.effects[0] == ListAccounts
            && forall k :: 1 <= k < |run.effects| ==> run.effects[k].ListTransactions?
  {
    var run := Scan(rule, cfg, guard, acct, page, first, second, third);
    if page.Rendered? && |page.rows| > 0 {
      var splits := ScrapePage(cfg, acct, page.rows);
      var reqs := Requests(cfg, acct, splits, Widen(rule, |splits|, first, second, third).requests);
      RequestsAreQueries(cfg, acct, splits, |reqs|);
      OnlyQueriesAfterAccounts(reqs);
    }
  }

  lemma OnlyQueriesAfterAccounts(reqs: seq<Effect>)
    requires forall k :: 0 <= k < |reqs| ==> reqs[k].ListTransactions?
    ensures var effects := [ListAccounts] + reqs;
            forall k :: 1 <= k < |effects| ==> effects[k].ListTransactions?
  {
    var effects := [ListAccounts] + reqs;
    forall k | 1 <= k < |effects| ensures effects[k].ListTransactions? {
      assert effects[k] == reqs[k - 1];
    }
  }

  lemma RequestsAreQueries(cfg: Config, acct: Account, splits: seq<Split>, count: nat)
    requires |splits| > 0 && count >= 1
    ensures forall k :: 0 <= k < count ==> Requests(cfg, acct, splits, count)[k].ListTransactions?
  {
  }

  // ---------------------------------------------------------------------
  // The sign convention

  /** The same configuration under the other sign convention. */
  function Flipped(cfg: Config): (c: Config)
    ensures c.negativeMeansWithdrawal != cfg.negativeMeansWithdrawal
    ensures c.(negativeMeansWithdrawal := cfg.negativeMeansWithdrawal) == cfg
  {
    cfg.(negativeMeansWithdrawal := !cfg.negativeMeansWithdrawal)
  }

  /** The page as a bank with the other sign convention shows it. */
  function NegatedPage(page: Extraction): (q: Extraction)
    ensures q.StillLoading? <==> page.StillLoading?
    ensures q.Rendered? ==> q.rows == Negated(page.rows)
  {
    if page.StillLoading? then page else Rendered(Negated(page.rows))
  }

  lemma {:induction false} MatchesIgnoreSign(cfg: Config, pool: seq<RemoteTx>, scraped: Split)
    requires WellFormed(pool)
    ensures MatchesOf(Corrected, Flipped(cfg), pool, scraped) == MatchesOf(Corrected, cfg, pool, scraped)
    ensures NonMatchesOf(Corrected, Flipped(cfg), pool, scraped) == NonMatchesOf(Corrected, cfg, pool, scraped)
    decreases |pool|
  {
    if |pool| > 0 {
      assert pool == [pool[0]] + pool[1..];
      CorrectedIgnoresSignFlag(cfg, Flipped(cfg), pool[0], scraped);
      MatchesIgnoreSign(cfg, pool[1..], scraped);
    }
  }

  lemma {:induction false} MatchRowsIgnoreSign(cfg: Config, splits: seq<Split>, i: nat, st: Pass)
    requires i <= |splits| && WellFormed(st.pool)
    ensures MatchRows(Corrected, Flipped(cfg), splits, i, st) == MatchRows(Corrected, cfg, splits, i, st)
    decreases |splits| - i
  {
    if i < |splits| {
      MatchesIgnoreSign(cfg, st.pool, splits[i]);
      var st1 := Step(Corrected, cfg, splits, i, st);
      assert Step(Corrected, Flipped(cfg), splits, i, st) == st1;
      MatchRowsIgnoreSign(cfg, splits, i + 1, st1);
    }
  }

  /** With the corrected amount clause a scan does not depend on the sign
      convention: a bank showing every amount negated under the other
      convention gets the same messages, guard and buckets. */
  lemma ScanSignFlip(cfg: Config, guard: bool, acct: Account, page: Extraction,
                     first: seq<RemoteTx>, second: seq<RemoteTx>, third: seq<RemoteTx>)
    ensures Scan(Corrected, Flipped(cfg), guard, acct, NegatedPage(page), first, second, third)
         == Scan(Corrected, cfg, guard, acct, page, first, second, third)
  {
    if page.Rendered? {
      ScrapePageSignFlip(cfg, acct, page.rows);
      var splits := ScrapePage(cfg, acct, page.rows);
      var w := Widen(Corrected, |splits|, first, second, third);
      if |splits| > 0 && WellFormed(w.pool) {
        MatchRowsIgnoreSign(cfg, splits, 0, Pass(NewAdder(acct.id), w.pool));
      }
    }
  }

  /** A one-row page with a one-record reply, which needs no widening, is
      classified against that record. */
  lemma ScanOneRowOneRecord(rule: Rule, cfg: Config, guard: bool, acct: Account, row: Row, stored: RemoteTx)
    requires |stored.splits| > 0
    ensures Scan(rule, cfg, guard, acct, Rendered([row]), [stored], [], []).outcome
         == Success(Classify(rule, cfg, acct.id, [ScrapeRow(cfg, acct, row)], [stored]))
  {
    assert ScrapePage(cfg, acct, [row]) == [ScrapeRow(cfg, acct, row)];
    assert Widen(rule, 1, [stored], [], []).pool == [stored];
  }

  /** The clause as written breaks that: when negative amounts mean
      withdrawals, a one-row page whose row the ledger already holds, as the
      export button stores it, shows the row as local-only; the corrected
      clause shows it as synced. */
  lemma ScanAsWrittenMissesStoredRow(cfg: Config, guard: bool, acct: Account, row: Row, obj: nat, id: string)
    requires cfg.negativeMeansWithdrawal
    ensures var stored := RemoteTx(obj, id, [ScrapeRow(cfg, acct, row)]);
            var asWritten := Scan(AsWritten, cfg, guard, acct, Rendered([row]), [stored], [], []);
            var corrected := Scan(Corrected, cfg, guard, acct, Rendered([row]), [stored], [], []);
            && asWritten.outcome.Success? && corrected.outcome.Success?
            && asWritten.outcome.value.synced == [] && |asWritten.outcome.value.localOnly| == 1
            && |corrected.outcome.value.synced| == 1 && corrected.outcome.value.localOnly == []
  {
    var split := ScrapeRow(cfg, acct, row);
    var stored := RemoteTx(obj, id, [split]);
    CopyMatchesOnlyWhenCorrected(cfg, stored, split);
    ScanOneRowOneRecord(AsWritten, cfg, guard, acct, row, stored);
    ScanOneRowOneRecord(Corrected, cfg, guard, acct, row, stored);
    ClassifyOneRow(AsWritten, cfg, acct.id, split, stored);
    ClassifyOneRow(Corrected, cfg, acct.id, split, stored);
  }
}

=== FILE: scan_ui.dfy ===
/** The collector and presenter of a scan (`FireflyTransactionUIAdder` and
    `createRowWithButtonForRemoteOnlyTx` in
    src/content_scripts/scan/transactions.ts).

    The page is abstracted to a sequence of containers (parent elements),
    each holding its children in document order; a child is either one of
    the page's own transaction rows, named by its display index, or a row the
    scan synthesised for a remote-only record. */
module ScanUi {
  import opened Wrappers
  import opened Ledger

  /** A classified entry: the split to show, the page row it belongs to
      (absent for records the page does not show) and its display
      neighbours, which anchor synthesised rows. */
  datatype MetaTx = MetaTx(tx: Split, txRow: Option<nat>, prevRow: Option<nat>, nextRow: Option<nat>)

  /** The three buckets of a scan, each in registration order. */
  datatype Adder = Adder(accountNo: string, synced: seq<MetaTx>, remoteOnly: seq<MetaTx>, localOnly: seq<MetaTx>)

  function Size(a: Adder): nat
  {
    |a.synced| + |a.remoteOnly| + |a.localOnly|
  }

  function NewAdder(accountNo: string): (a: Adder)
    ensures a.accountNo == accountNo
    ensures a.synced == [] && a.remoteOnly == [] && a.localOnly == []
  {
    Adder(accountNo, [], [], [])
  }

  function RegisterSynced(a: Adder, m: MetaTx): (b: Adder)
    ensures b.synced == a.synced + [m]
    ensures b.remoteOnly == a.remoteOnly && b.localOnly == a.localOnly && b.accountNo == a.accountNo
    ensures Size(b) == Size(a) + 1
  {
    a.(synced := a.synced + [m])
  }

  function RegisterRemoteOnly(a: Adder, m: MetaTx): (b: Adder)
    ensures b.remoteOnly == a.remoteOnly + [m]
    ensures b.synced == a.synced && b.localOnly == a.localOnly && b.accountNo == a.accountNo
    ensures Size(b) == Size(a) + 1
  {
    a.(remoteOnly := a.remoteOnly + [m])
  }

  function RegisterLocalOnly(a: Adder, m: MetaTx): (b: Adder)
    ensures b.localOnly == a.localOnly + [m]
    ensures b.synced == a.synced && b.remoteOnly == a.remoteOnly && b.accountNo == a.accountNo
    ensures Size(b) == Size(a) + 1
  {
    a.(localOnly := a.localOnly + [m])
  }

  /** The remote-only entry recorded for an extra match of a scraped row: it
      keeps the scraped entry's rows and shows the remote record's first
      split, tagged with the record's id. */
  function DuplicateEntry(meta: MetaTx, remote: RemoteTx): (d: MetaTx)
    requires |remote.splits| > 0
    ensures d.txRow == meta.txRow && d.prevRow == meta.prevRow && d.nextRow == meta.nextRow
    ensures d.tx.remoteId == Some(remote.id)
    ensures d.tx.(remoteId := None) == remote.splits[0].(remoteId := None)
  {
    meta.(tx := remote.splits[0].(remoteId := Some(remote.id)))
  }

  function DuplicateEntries(meta: MetaTx, remotes: seq<RemoteTx>): (ds: seq<MetaTx>)
    requires WellFormed(remotes)
    ensures |ds| == |remotes|
    ensures forall k :: 0 <= k < |remotes| ==> ds[k] == DuplicateEntry(meta, remotes[k])
  {
    seq(|remotes|, k requires 0 <= k < |remotes| => DuplicateEntry(meta, remotes[k]))
  }

  /** `registerDuplicates`: one remote-only entry per given record, in the
      given order, behind the entries already there. */
  function RegisterDuplicates(a: Adder, meta: MetaTx, remotes: seq<RemoteTx>): (b: Adder)
    requires WellFormed(remotes)
    ensures b.synced == a.synced && b.localOnly == a.localOnly && b.accountNo == a.accountNo
    ensures |b.remoteOnly| == |a.remoteOnly| + |remotes|
    ensures b.remoteOnly[..|a.remoteOnly|] == a.remoteOnly
    ensures forall k :: 0 <= k < |remotes| ==>
              && b.remoteOnly[|a.remoteOnly| + k].txRow == meta.txRow
              && b.remoteOnly[|a.remoteOnly| + k].prevRow == meta.prevRow
              && b.remoteOnly[|a.remoteOnly| + k].nextRow == meta.nextRow
              && b.remoteOnly[|a.remoteOnly| + k].tx == remotes[k].splits[0].(remoteId := Some(remotes[k].id))
  {
    a.(remoteOnly := a.remoteOnly + DuplicateEntries(meta, remotes))
  }

  /** The message the "store" button of a local-only row sends: the entry's
      six transaction fields, with rules applied and duplicate hashes
      tolerated, outside auto-run. */
  function StoreTx(m: MetaTx): (e: Effect)
    ensures e.StoreTransactions? && !e.isAutoRun && |e.value| == 1
    ensures e.value[0].applyRules && !e.value[0].errorIfDuplicateHash
    ensures e.value[0].transactions == [m.tx.(remoteId := None)]
  {
    StoreTransactions(false, [TxStore(false, true, [Split(m.tx.txType, m.tx.date, m.tx.amount, m.tx.description,
                                                          m.tx.sourceId, m.tx.destinationId, None)])])
  }

  /** What a local-only row's button stores is the scraped split itself; it
      differs from what the export button stores for that row only in
      tolerating a duplicate hash. */
  lemma StoreTxOfScraped(m: MetaTx)
    requires m.tx.remoteId == None
    ensures StoreTx(m) == StoreTransactions(false, [TxStore(false, true, [m.tx])])
  {
  }

  /** One step of rendering. */
  datatype Render =
    | ClearScanMarkup
    | StyleFoundRow(row: Option<nat>)
    | StyleLocalOnlyRow(row: Option<nat>, onStore: Effect)
    | InsertRemoteOnlyRow(tx: Split, prevRow: Option<nat>, nextRow: Option<nat>, onDelete: Effect)

  function FoundRenders(ms: seq<MetaTx>): (t: seq<Render>)
    ensures |t| == |ms|
    ensures forall k :: 0 <= k < |ms| ==> t[k] == StyleFoundRow(ms[k].txRow)
  {
    seq(|ms|, k requires 0 <= k < |ms| => StyleFoundRow(ms[k].txRow))
  }

  function LocalOnlyRenders(ms: seq<MetaTx>): (t: seq<Render>)
    ensures |t| == |ms|
    ensures forall k :: 0 <= k < |ms| ==> t[k] == StyleLocalOnlyRow(ms[k].txRow, StoreTx(ms[k]))
  {
    seq(|ms|, k requires 0 <= k < |ms| => StyleLocalOnlyRow(ms[k].txRow, StoreTx(ms[k])))
  }

  function RemoteOnlyRenders(ms: seq<MetaTx>): (t: seq<Render>)
    ensures |t| == |ms|
    ensures forall k :: 0 <= k < |ms| ==>
              t[k] == InsertRemoteOnlyRow(ms[k].tx, ms[k].prevRow, ms[k].nextRow, DeleteTransaction(ms[k].tx.remoteId))
  {
    seq(|ms|, k requires 0 <= k < |ms| =>
      InsertRemoteOnlyRow(ms[k].tx, ms[k].prevRow, ms[k].nextRow, DeleteTransaction(ms[k].tx.remoteId)))
  }

  /** `processAll`: clear the previous scan's markup, then render the synced,
      the local-only and the remote-only entries, one step per entry, each
      bucket in registration order. */
  function ProcessAll(a: Adder): (t: seq<Render>)
    ensures |t| == 1 + Size(a)
    ensures t[0] == ClearScanMarkup
    ensures forall k :: 0 < k < |t| ==> !t[k].ClearScanMarkup?
    ensures forall k :: 0 <= k < |a.synced| ==> t[1 + k] == StyleFoundRow(a.synced[k].txRow)
    ensures forall k :: 0 <= k < |a.localOnly| ==>
              t[1 + |a.synced| + k] == StyleLocalOnlyRow(a.localOnly[k].txRow, StoreTx(a.localOnly[k]))
    ensures forall k :: 0 <= k < |a.remoteOnly| ==>
              t[1 + |a.synced| + |a.localOnly| + k]
              == InsertRemoteOnlyRow(a.remoteOnly[k].tx, a.remoteOnly[k].prevRow, a.remoteOnly[k].nextRow,
                                     DeleteTransaction(a.remoteOnly[k].tx.remoteId))
  {
    [ClearScanMarkup] + FoundRenders(a.synced) + LocalOnlyRenders(a.localOnly) + RemoteOnlyRenders(a.remoteOnly)
  }

  // ---------------------------------------------------------------------
  // The page

  datatype Node = PageRow(row: nat) | AddedRow(tx: Split)

  /** Containers, each with its children in document order. */
  type Page = seq<seq<Node>>

  predicate HasRow(page: Page, row: nat)
  {
    exists c :: 0 <= c < |page| && PageRow(row) in page[c]
  }

  /** The first position of a row among a container's children. */
  function FindChild(children: seq<Node>, row: nat): (p: Option<nat>)
    ensures p.Some? ==> p.value < |children| && children[p.value] == PageRow(row)
    ensures p.None? <==> PageRow(row) !in children
  {
    if |children| == 0 then None
    else if children[0] == PageRow(row) then Some(0)
    else match FindChild(children[1..], row)
      case None => None
      case Some(p) => Some(p + 1)
  }

  /** The container and position of a row, searching from container `c`. */
  function LocateFrom(page: Page, row: nat, c: nat): (loc: Option<(nat, nat)>)
    requires c <= |page|
    ensures loc.Some? ==> c <= loc.value.0 < |page| && loc.value.1 < |page[loc.value.0]|
                          && page[loc.value.0][loc.value.1] == PageRow(row)
    ensures loc.None? <==> forall c' :: c <= c' < |page| ==> PageRow(row) !in page[c']
    decreases |page| - c
  {
    if c == |page| then None
    else match FindChild(page[c], row)
      case Some(p) => Some((c, p))
      case None => LocateFrom(page, row, c + 1)
  }

  function Locate(page: Page, row: nat): (loc: Option<(nat, nat)>)
    ensures loc.Some? ==> loc.value.0 < |page| && loc.value.1 < |page[loc.value.0]|
                          && page[loc.value.0][loc.value.1] == PageRow(row)
    ensures loc.None? <==> !HasRow(page, row)
  {
    LocateFrom(page, row, 0)
  }

  /** `createRowWithButtonForRemoteOnlyTx`: with `prevRow` set, the new row
      goes immediately before it in its container; otherwise it becomes the
      first child of `nextRow`'s container. A row that is not on the page
      (or no anchor at all) inserts nothing; a missing `prevRow` does not
      fall back to `nextRow`. */
  function Place(page: Page, tx: Split, prevRow: Option<nat>, nextRow: Option<nat>): (r: Page)
    ensures |r| == |page|
    ensures prevRow.Some? && Locate(page, prevRow.value).Some? ==>
              var (c, p) := Locate(page, prevRow.value).value;
              && |r[c]| == |page[c]| + 1
              && r[c][p] == AddedRow(tx) && r[c][p + 1] == PageRow(prevRow.value)
              && r[c][..p] == page[c][..p] && r[c][p + 1..] == page[c][p..]
              && (forall c' :: 0 <= c' < |page| && c' != c ==> r[c'] == page[c'])
    ensures prevRow.None? && nextRow.Some? && Locate(page, nextRow.value).Some? ==>
              var (c, _) := Locate(page, nextRow.value).value;
              && r[c] == [AddedRow(tx)] + page[c]
              && (forall c' :: 0 <= c' < |page| && c' != c ==> r[c'] == page[c'])
    ensures !Anchored(page, prevRow, nextRow) ==> r == page
  {
    if prevRow.Some? then
      match Locate(page, prevRow.value)
      case None => page
      case Some((c, p)) => page[c := page[c][..p] + [AddedRow(tx)] + page[c][p..]]
    else if nextRow.Some? then
      match Locate(page, nextRow.value)
      case None => page
      case Some((c, _)) => page[c := [AddedRow(tx)] + page[c]]
    else page
  }

  /** Whether `Place` finds somewhere to put the row. */
  predicate Anchored(page: Page, prevRow: Option<nat>, nextRow: Option<nat>)
  {
    if prevRow.Some? then HasRow(page, prevRow.value)
    else nextRow.Some? && HasRow(page, nextRow.value)
  }

  function WithoutAdded(children: seq<Node>): seq<Node>
  {
    if |children| == 0 then []
    else (if children[0].AddedRow? then [] else [children[0]]) + WithoutAdded(children[1..])
  }

  /** Removing every row an earlier scan synthesised. */
  function Clear(page: Page): (r: Page)
    ensures |r| == |page|
    ensures forall c :: 0 <= c < |page| ==> r[c] == WithoutAdded(page[c])
  {
    seq(|page|, c requires 0 <= c < |page| => WithoutAdded(page[c]))
  }

  function PlaceAll(page: Page, es: seq<MetaTx>): Page
    decreases |es|
  {
    if |es| == 0 then page else PlaceAll(Place(page, es[0].tx, es[0].prevRow, es[0].nextRow), es[1..])
  }

  /** The effect of one rendering step on the page's structure. */
  function ApplyRender(page: Page, step: Render): Page
  {
    match step
    case ClearScanMarkup => Clear(page)
    case StyleFoundRow(_) => page
    case StyleLocalOnlyRow(_, _) => page
    case InsertRemoteOnlyRow(tx, prevRow, nextRow, _) => Place(page, tx, prevRow, nextRow)
  }

  function ApplyRenders(page: Page, steps: seq<Render>): Page
    decreases |steps|
  {
    if |steps| == 0 then page else ApplyRenders(ApplyRender(page, steps[0]), steps[1..])
  }

  /** Rendering a scan's buckets onto the page: the earlier scan's rows are
      cleared, then every remote-only entry is placed in registration
      order; styling changes no structure. */
  function Present(page: Page, a: Adder): (r: Page)
    ensures r == PlaceAll(Clear(page), a.remoteOnly)
  {
    RenderingClearsThenPlaces(page, a);
    ApplyRenders(page, ProcessAll(a))
  }

  /** Clicking the delete button of a synthesised row: the delete message
      goes out and the row is removed at once, whatever the reply. */
  datatype Clicked = Clicked(effects: seq<Effect>, page: Page)

  function ClickDelete(page: Page, c: nat, p: nat): (k: Clicked)
    requires c < |page| && p < |page[c]| && page[c][p].AddedRow?
    ensures k.effects == [DeleteTransaction(page[c][p].tx.remoteId)]
    ensures |k.page| == |page| && k.page[c] == page[c][..p] + page[c][p + 1..]
    ensures forall c' :: 0 <= c' < |page| && c' != c ==> k.page[c'] == page[c']
  {
    Clicked([DeleteTransaction(page[c][p].tx.remoteId)], page[c := page[c][..p] + page[c][p + 1..]])
  }

  // ---------------------------------------------------------------------
  // Re-rendering is idempotent

  lemma {:induction false} WithoutAddedAppend(a: seq<Node>, b: seq<Node>)
    ensures WithoutAdded(a + b) == WithoutAdded(a) + WithoutAdded(b)
    decreases |a|
  {
    if |a| > 0 {
      assert (a + b)[0] == a[0];
      assert (a + b)[1..] == a[1..] + b;
      WithoutAddedAppend(a[1..], b);
    } else {
      assert a + b == b;
    }
  }

  lemma {:induction false} WithoutAddedTwice(a: seq<Node>)
    ensures WithoutAdded(WithoutAdded(a)) == WithoutAdded(a)
    decreases |a|
  {
    if |a| > 0 {
      WithoutAddedTwice(a[1..]);
      WithoutAddedAppend(if a[0].AddedRow? then [] else [a[0]], WithoutAdded(a[1..]));
    }
  }

  /** Inserting a synthesised child anywhere is undone by clearing. */
  lemma InsertAddedCleared(a: seq<Node>, p: nat, tx: Split)
    requires p <= |a|
    ensures WithoutAdded(a[..p] + [AddedRow(tx)] + a[p..]) == WithoutAdded(a)
    ensures CountAdded(a[..p] + [AddedRow(tx)] + a[p..]) == CountAdded(a) + 1
  {
    var u, w := a[..p], a[p..];
    assert u + w == a;
    InsertAddedWithout(u, w, tx);
    InsertAddedCount(u, w, tx);
  }

  lemma InsertAddedWithout(u: seq<Node>, w: seq<Node>, tx: Split)
    ensures WithoutAdded(u + [AddedRow(tx)] + w) == WithoutAdded(u + w)
  {
    var v := [AddedRow(tx)];
    assert WithoutAdded(v) == [] + WithoutAdded(v[1..]);
    WithoutAddedAppend(u + v, w);
    WithoutAddedAppend(u, v);
    WithoutAddedAppend(u, w);
  }

  lemma InsertAddedCount(u: seq<Node>, w: seq<Node>, tx: Split)
    ensures CountAdded(u + [AddedRow(tx)] + w) == CountAdded(u + w) + 1
  {
    var v := [AddedRow(tx)];
    assert CountAdded(v) == 1 + CountAdded(v[1..]);
    CountAddedAppend(u + v, w);
    CountAddedAppend(u, v);
    CountAddedAppend(u, w);
  }

  /** Removing a synthesised child is undone by clearing. */
  lemma RemoveAddedCleared(a: seq<Node>, p: nat)
    requires p < |a| && a[p].AddedRow?
    ensures WithoutAdded(a[..p] + a[p + 1..]) == WithoutAdded(a)
    ensures CountAdded(a[..p] + a[p + 1..]) + 1 == CountAdded(a)
  {
    var b := a[..p] + a[p + 1..];
    InsertAddedCleared(b, p, a[p].tx);
    assert b[..p] == a[..p];
    assert b[p..] == a[p + 1..];
    assert b[..p] + [AddedRow(a[p].tx)] + b[p..] == a;
  }

  lemma ClearUpdate(page: Page, c: nat, x: seq<Node>)
    requires c < |page|
    requires WithoutAdded(x) == WithoutAdded(page[c])
    ensures Clear(page[c := x]) == Clear(page)
  {
    assert forall c' :: 0 <= c' < |page| ==> Clear(page[c := x])[c'] == Clear(page)[c'];
  }

  /** Placing a synthesised row changes nothing that clearing keeps. */
  lemma ClearPlace(page: Page, tx: Split, prevRow: Option<nat>, nextRow: Option<nat>)
    ensures Clear(Place(page, tx, prevRow, nextRow)) == Clear(page)
  {
    if prevRow.Some? {
      match Locate(page, prevRow.value)
      case None =>
      case Some((c, p)) =>
        InsertAddedCleared(page[c], p, tx);
        ClearUpdate(page, c, page[c][..p] + [AddedRow(tx)] + page[c][p..]);
    } else if nextRow.Some? {
      match Locate(page, nextRow.value)
      case None =>
      case Some((c, _)) =>
        InsertAddedCleared(page[c], 0, tx);
        assert page[c][..0] + [AddedRow(tx)] + page[c][0..] == [AddedRow(tx)] + page[c];
        ClearUpdate(page, c, [AddedRow(tx)] + page[c]);
    }
  }

  lemma ClearIdempotent(page: Page)
    ensures Clear(Clear(page)) == Clear(page)
  {
    forall c | 0 <= c < |page|
      ensures WithoutAdded(WithoutAdded(page[c])) == WithoutAdded(page[c])
    {
      WithoutAddedTwice(page[c]);
    }
  }

  lemma {:induction false} ClearPlaceAll(page: Page, es: seq<MetaTx>)
    ensures Clear(PlaceAll(page, es)) == Clear(page)
    decreases |es|
  {
    if |es| > 0 {
      ClearPlaceAll(Place(page, es[0].tx, es[0].prevRow, es[0].nextRow), es[1..]);
      ClearPlace(page, es[0].tx, es[0].prevRow, es[0].nextRow);
    }
  }

  lemma {:induction false} ApplyRendersAppend(page: Page, s: seq<Render>, t: seq<Render>)
    ensures ApplyRenders(page, s + t) == ApplyRenders(ApplyRenders(page, s), t)
    decreases |s|
  {
    if |s| > 0 {
      assert (s + t)[0] == s[0];
      assert (s + t)[1..] == s[1..] + t;
      ApplyRendersAppend(ApplyRender(page, s[0]), s[1..], t);
    } else {
      assert s + t == t;
    }
  }

  lemma {:induction false} FoundRendersKeepPage(page: Page, ms: seq<MetaTx>)
    ensures ApplyRenders(page, FoundRenders(ms)) == page
    decreases |ms|
  {
    if |ms| > 0 {
      assert FoundRenders(ms)[1..] == FoundRenders(ms[1..]);
      FoundRendersKeepPage(page, ms[1..]);
    }
  }

  lemma {:induction false} LocalOnlyRendersKeepPage(page: Page, ms: seq<MetaTx>)
    ensures ApplyRenders(page, LocalOnlyRenders(ms)) == page
    decreases |ms|
  {
    if |ms| > 0 {
      assert LocalOnlyRenders(ms)[1..] == LocalOnlyRenders(ms[1..]);
      LocalOnlyRendersKeepPage(page, ms[1..]);
    }
  }

  lemma {:induction false} InsertsArePlacements(page: Page, es: seq<MetaTx>)
    ensures ApplyRenders(page, RemoteOnlyRenders(es)) == PlaceAll(page, es)
    decreases |es|
  {
    if |es| > 0 {
      assert RemoteOnlyRenders(es)[1..] == RemoteOnlyRenders(es[1..]);
      InsertsArePlacements(Place(page, es[0].tx, es[0].prevRow, es[0].nextRow), es[1..]);
    }
  }

  lemma RenderingClearsThenPlaces(page: Page, a: Adder)
    ensures ApplyRenders(page, ProcessAll(a)) == PlaceAll(Clear(page), a.remoteOnly)
  {
    var f, l, r := FoundRenders(a.synced), LocalOnlyRenders(a.localOnly), RemoteOnlyRenders(a.remoteOnly);
    assert ProcessAll(a) == [ClearScanMarkup] + f + l + r;
    ApplyRendersAppend(page, [ClearScanMarkup] + f + l, r);
    ApplyRendersAppend(page, [ClearScanMarkup] + f, l);
    ApplyRendersAppend(page, [ClearScanMarkup], f);
    assert ApplyRenders(page, [ClearScanMarkup]) == Clear(page);
    FoundRendersKeepPage(Clear(page), a.synced);
    LocalOnlyRendersKeepPage(Clear(page), a.localOnly);
    InsertsArePlacements(Clear(page), a.remoteOnly);
  }

  /** Presenting the same buckets twice leaves the page as presenting them
      once: repeated scans never accumulate stale rows. */
  lemma PresentIdempotent(page: Page, a: Adder)
    ensures Present(Present(page, a), a) == Present(page, a)
  {
    ClearPlaceAll(Clear(page), a.remoteOnly);
    ClearIdempotent(page);
  }

  // ---------------------------------------------------------------------
  // One synthesised row per anchored remote-only entry

  function CountAdded(children: seq<Node>): nat
  {
    if |children| == 0 then 0 else (if children[0].AddedRow? then 1 else 0) + CountAdded(children[1..])
  }

  /** The number of synthesised rows on the page. */
  function AddedCount(page: Page): nat
  {
    if |page| == 0 then 0 else CountAdded(page[0]) + AddedCount(page[1..])
  }

  /** The number of entries whose anchor row is on the page. */
  function CountAnchored(page: Page, es: seq<MetaTx>): nat
  {
    if |es| == 0 then 0
    else (if Anchored(page, es[0].prevRow, es[0].nextRow) then 1 else 0) + CountAnchored(page, es[1..])
  }

  lemma {:induction false} CountAddedAppend(a: seq<Node>, b: seq<Node>)
    ensures CountAdded(a + b) == CountAdded(a) + CountAdded(b)
    decreases |a|
  {
    if |a| > 0 {
      assert (a + b)[0] == a[0];
      assert (a + b)[1..] == a[1..] + b;
      CountAddedAppend(a[1..], b);
    } else {
      assert a + b == b;
    }
  }

  lemma {:induction false} CountWithoutAdded(a: seq<Node>)
    ensures CountAdded(WithoutAdded(a)) == 0
    decreases |a|
  {
    if |a| > 0 {
      CountWithoutAdded(a[1..]);
      CountAddedAppend(if a[0].AddedRow? then [] else [a[0]], WithoutAdded(a[1..]));
    }
  }

  lemma {:induction false} AddedCountUpdate(page: Page, c: nat, x: seq<Node>)
    requires c < |page|
    ensures AddedCount(page[c := x]) + CountAdded(page[c]) == AddedCount(page) + CountAdded(x)
    decreases |page|
  {
    if c > 0 {
      assert page[c := x][1..] == page[1..][c - 1 := x];
      AddedCountUpdate(page[1..], c - 1, x);
    } else {
      assert page[c := x][1..] == page[1..];
    }
  }

  lemma {:induction false} AddedCountOfClear(page: Page)
    ensures AddedCount(Clear(page)) == 0
    decreases |page|
  {
    if |page| > 0 {
      assert Clear(page)[1..] == Clear(page[1..]);
      CountWithoutAdded(page[0]);
      AddedCountOfClear(page[1..]);
    }
  }

  /** Replacing a container by one with the same page rows keeps every
      page row findable. */
  lemma SameRowsKeepHasRow(page: Page, c: nat, x: seq<Node>, row: nat)
    requires c < |page|
    requires forall q: nat :: PageRow(q) in x <==> PageRow(q) in page[c]
    ensures HasRow(page[c := x], row) <==> HasRow(page, row)
  {
    if HasRow(page, row) {
      var c' :| 0 <= c' < |page| && PageRow(row) in page[c'];
      assert PageRow(row) in page[c := x][c'];
    }
    if HasRow(page[c := x], row) {
      var c' :| 0 <= c' < |page| && PageRow(row) in page[c := x][c'];
      assert PageRow(row) in page[c'];
    }
  }

  /** Placing a row adds one synthesised row exactly when its anchor is on
      the page, and every page row stays where it can be found. */
  lemma PlaceCounts(page: Page, tx: Split, prevRow: Option<nat>, nextRow: Option<nat>)
    ensures AddedCount(Place(page, tx, prevRow, nextRow))
         == AddedCount(page) + (if Anchored(page, prevRow, nextRow) then 1 else 0)
    ensures forall row :: HasRow(Place(page, tx, prevRow, nextRow), row) <==> HasRow(page, row)
  {
    if prevRow.Some? {
      match Locate(page, prevRow.value)
      case None =>
      case Some((c, p)) =>
        InsertAddedAt(page, c, p, tx);
    } else if nextRow.Some? {
      match Locate(page, nextRow.value)
      case None =>
      case Some((c, _)) =>
        InsertAddedAt(page, c, 0, tx);
        assert page[c][..0] + [AddedRow(tx)] + page[c][0..] == [AddedRow(tx)] + page[c];
    }
  }

  lemma InsertAddedAt(page: Page, c: nat, p: nat, tx: Split)
    requires c < |page| && p <= |page[c]|
    ensures var r := page[c := page[c][..p] + [AddedRow(tx)] + page[c][p..]];
            && AddedCount(r) == AddedCount(page) + 1
            && forall row :: HasRow(r, row) <==> HasRow(page, row)
  {
    var x := page[c][..p] + [AddedRow(tx)] + page[c][p..];
    InsertAddedCleared(page[c], p, tx);
    AddedCountUpdate(page, c, x);
    forall q: nat ensures PageRow(q) in x <==> PageRow(q) in page[c] {
      assert page[c] == page[c][..p] + page[c][p..];
      assert PageRow(q) in x <==> PageRow(q) in page[c][..p] || PageRow(q) in page[c][p..];
    }
    forall row ensures HasRow(page[c := x], row) <==> HasRow(page, row) {
      SameRowsKeepHasRow(page, c, x, row);
    }
  }

  lemma {:induction false} PlaceAllCounts(page: Page, es: seq<MetaTx>)
    ensures AddedCount(PlaceAll(page, es)) == AddedCount(page) + CountAnchored(page, es)
    decreases |es|
  {
    if |es| > 0 {
      var next := Place(page, es[0].tx, es[0].prevRow, es[0].nextRow);
      PlaceCounts(page, es[0].tx, es[0].prevRow, es[0].nextRow);
      PlaceAllCounts(next, es[1..]);
      SameAnchors(page, next, es[1..]);
    }
  }

  lemma {:induction false} SameAnchors(page: Page, page': Page, es: seq<MetaTx>)
    requires forall row :: HasRow(page', row) <==> HasRow(page, row)
    ensures CountAnchored(page', es) == CountAnchored(page, es)
    decreases |es|
  {
    if |es| > 0 {
      SameAnchors(page, page', es[1..]);
    }
  }

  lemma {:induction false} WithoutAddedKeepsRows(a: seq<Node>, q: nat)
    ensures PageRow(q) in WithoutAdded(a) <==> PageRow(q) in a
    decreases |a|
  {
    if |a| > 0 {
      WithoutAddedKeepsRows(a[1..], q);
      assert a == [a[0]] + a[1..];
    }
  }

  lemma ClearKeepsRows(page: Page)
    ensures forall row :: HasRow(Clear(page), row) <==> HasRow(page, row)
  {
    forall row ensures HasRow(Clear(page), row) <==> HasRow(page, row) {
      if HasRow(page, row) {
        var c :| 0 <= c < |page| && PageRow(row) in page[c];
        WithoutAddedKeepsRows(page[c], row);
        assert PageRow(row) in Clear(page)[c];
      }
      if HasRow(Clear(page), row) {
        var c :| 0 <= c < |page| && PageRow(row) in Clear(page)[c];
        WithoutAddedKeepsRows(page[c], row);
        assert PageRow(row) in page[c];
      }
    }
  }

  /** After presenting, the page holds exactly one synthesised row per
      remote-only entry whose anchor row is on the page, however often the
      scan was presented before. */
  lemma PresentRowCount(page: Page, a: Adder)
    ensures AddedCount(Present(page, a)) == CountAnchored(page, a.remoteOnly)
  {
    PlaceAllCounts(Clear(page), a.remoteOnly);
    AddedCountOfClear(page);
    ClearKeepsRows(page);
    SameAnchors(page, Clear(page), a.remoteOnly);
  }

  /** The delete button removes exactly its own synthesised row and nothing
      the page owns. */
  lemma ClickDeleteRemovesOnlyItsRow(page: Page, c: nat, p: nat)
    requires c < |page| && p < |page[c]| && page[c][p].AddedRow?
    ensures var x := ClickDelete(page, c, p).page[c];
            x[..p] + [page[c][p]] + x[p..] == page[c]
    ensures Clear(ClickDelete(page, c, p).page) == Clear(page)
    ensures AddedCount(ClickDelete(page, c, p).page) + 1 == AddedCount(page)
  {
    var x := page[c][..p] + page[c][p + 1..];
    assert ClickDelete(page, c, p).page == page[c := x];
    assert x[..p] == page[c][..p] && x[p..] == page[c][p + 1..];
    assert page[c] == page[c][..p] + [page[c][p]] + page[c][p + 1..];
    RemoveAddedCleared(page[c], p);
    ClearUpdate(page, c, x);
    AddedCountUpdate(page, c, x);
  }
}

=== FILE: text.dfy ===
/** String helpers with ECMAScript semantics: the `\s` character class, the
    `String.prototype.trim` method, the `replace(/\s+/g, ' ')` idiom used to
    compare descriptions, and `String.prototype.endsWith`. */
module Text {

  /** The code points matched by `\s` in an ECMAScript regular expression
      (WhiteSpace and LineTerminator); `trim` removes exactly this set. */
  predicate IsSpace(c: char)
  {
    var n := c as int;
    || n == 0x09 || n == 0x0A || n == 0x0B || n == 0x0C || n == 0x0D
    || n == 0x20 || n == 0xA0 || n == 0x1680
    || (0x2000 <= n <= 0x200A)
    || n == 0x2028 || n == 0x2029 || n == 0x202F || n == 0x205F
    || n == 0x3000 || n == 0xFEFF
  }

  predicate AllSpace(s: string)
  {
    forall k :: 0 <= k < |s| ==> IsSpace(s[k])
  }

  /** Drops the leading run of white space. */
  function TrimStart(s: string): (r: string)
    ensures |r| <= |s| && r == s[|s| - |r|..]
    ensures AllSpace(s[..|s| - |r|])
    ensures r == [] || !IsSpace(r[0])
  {
    if |s| > 0 && IsSpace(s[0]) then
      var r := TrimStart(s[1..]);
      PrefixCons(s, |s| - |r|);
      r
    else s
  }

  /** Drops the trailing run of white space. */
  function TrimEnd(s: string): (r: string)
    ensures |r| <= |s| && r == s[..|r|]
    ensures AllSpace(s[|r|..])
    ensures r == [] || !IsSpace(r[|r| - 1])
  {
    if |s| > 0 && IsSpace(s[|s| - 1]) then
      var r := TrimEnd(s[..|s| - 1]);
      SuffixSnoc(s, |r|);
      r
    else s
  }

  lemma PrefixCons<T>(s: seq<T>, n: nat)
    requires 1 <= n <= |s|
    ensures s[..n] == [s[0]] + s[1..][..n - 1]
  {
  }

  lemma SuffixSnoc<T>(s: seq<T>, n: nat)
    requires n < |s|
    ensures s[n..] == s[..|s| - 1][n..] + [s[|s| - 1]]
  {
  }

  /** `s.trim()`. */
  function Trim(s: string): (r: string)
    ensures r == [] || (!IsSpace(r[0]) && !IsSpace(r[|r| - 1]))
  {
    TrimEnd(TrimStart(s))
  }

  /** `s.replace(/\s+/g, ' ')`: every maximal run of white space becomes a
      single ordinary space (see `CollapseSpaceJoin` and
      `CollapseSpaceCollapsed`). */
  function CollapseSpace(s: string): (r: string)
    ensures |r| <= |s|
    ensures |s| > 0 ==> |r| > 0 && (IsSpace(r[0]) <==> IsSpace(s[0]))
    decreases |s|
  {
    if |s| == 0 then ""
    else if IsSpace(s[0]) then " " + CollapseSpace(TrimStart(s[1..]))
    else [s[0]] + CollapseSpace(s[1..])
  }

  /** A string in the form `CollapseSpace` produces: white space only as
      single ordinary spaces. */
  predicate Collapsed(s: string)
  {
    && (forall k :: 0 <= k < |s| && IsSpace(s[k]) ==> s[k] == ' ')
    && (forall k :: 0 <= k < |s| - 1 ==> !(IsSpace(s[k]) && IsSpace(s[k + 1])))
  }

  /** The characters of `s` that are not white space, in order. */
  function Visible(s: string): string
  {
    if |s| == 0 then "" else (if IsSpace(s[0]) then "" else [s[0]]) + Visible(s[1..])
  }

  /** `s.endsWith(suffix)`. */
  predicate EndsWith(s: string, suffix: string)
  {
    |suffix| <= |s| && s[|s| - |suffix|..] == suffix
  }

  /** A string ends with `suffix` exactly when it is some string followed
      by `suffix`; every string ends with the empty string. */
  lemma EndsWithAppended(s: string, p: string, suffix: string)
    ensures EndsWith(p + suffix, suffix)
    ensures EndsWith(s, suffix) ==> s == s[..|s| - |suffix|] + suffix
    ensures EndsWith(s, [])
  {
    assert (p + suffix)[|p|..] == suffix;
  }

  /** Leading white space in front of a string that starts visibly is exactly
      what `TrimStart` drops. */
  lemma {:induction false} TrimStartPadded(a: string, u: string)
    requires AllSpace(a)
    requires u == [] || !IsSpace(u[0])
    ensures TrimStart(a + u) == u
    decreases |a|
  {
    if |a| > 0 {
      assert (a + u)[0] == a[0];
      assert (a + u)[1..] == a[1..] + u;
      TrimStartPadded(a[1..], u);
    } else {
      assert a + u == u;
    }
  }

  /** Trailing white space behind a string that ends visibly is exactly what
      `TrimEnd` drops. */
  lemma {:induction false} TrimEndPadded(u: string, b: string)
    requires AllSpace(b)
    requires u == [] || !IsSpace(u[|u| - 1])
    ensures TrimEnd(u + b) == u
    decreases |b|
  {
    if |b| > 0 {
      var ub := u + b;
      assert ub[|ub| - 1] == b[|b| - 1];
      assert ub[..|ub| - 1] == u + b[..|b| - 1];
      TrimEndPadded(u, b[..|b| - 1]);
    } else {
      assert u + b == u;
    }
  }

  /** `trim` is characterised by its result: stripping any white-space padding
      from a string whose ends are visible gives back that string. */
  lemma TrimPadded(a: string, t: string, b: string)
    requires AllSpace(a) && AllSpace(b)
    requires t == [] || (!IsSpace(t[0]) && !IsSpace(t[|t| - 1]))
    ensures Trim(a + t + b) == t
  {
    assert a + t + b == a + (t + b);
    if t == [] {
      assert AllSpace(a + b);
      TrimStartPadded(a + b, []);
      assert a + b + [] == a + t + b;
    } else {
      TrimStartPadded(a, t + b);
      TrimEndPadded(t, b);
    }
  }

  /** Trimming twice is trimming once. */
  lemma TrimIdempotent(s: string)
    ensures Trim(Trim(s)) == Trim(s)
  {
    var r := Trim(s);
    assert TrimStart(r) == r;
    assert TrimEnd(r) == r;
  }

  lemma CollapsedTail(s: string)
    requires Collapsed(s) && |s| > 0
    ensures Collapsed(s[1..])
    ensures IsSpace(s[0]) ==> s[0] == ' ' && (s[1..] == [] || !IsSpace(s[1..][0]))
  {
    var t := s[1..];
    forall k | 0 <= k < |t| - 1 ensures !(IsSpace(t[k]) && IsSpace(t[k + 1])) {
      assert t[k] == s[k + 1] && t[k + 1] == s[k + 2];
    }
    forall k | 0 <= k < |t| && IsSpace(t[k]) ensures t[k] == ' ' {
      assert t[k] == s[k + 1];
    }
  }

  /** A string already in collapsed form is left unchanged. */
  lemma {:induction false} CollapseSpaceFixed(s: string)
    requires Collapsed(s)
    ensures CollapseSpace(s) == s
    decreases |s|
  {
    if |s| > 0 {
      var t := s[1..];
      CollapsedTail(s);
      CollapseSpaceFixed(t);
      if IsSpace(s[0]) {
        TrimStartOfVisible(t);
        assert CollapseSpace(s) == " " + CollapseSpace(TrimStart(t));
        assert " " == [s[0]];
      } else {
        assert CollapseSpace(s) == [s[0]] + CollapseSpace(t);
      }
      assert s == [s[0]] + t;
    }
  }

  lemma TrimStartOfVisible(t: string)
    requires t == [] || !IsSpace(t[0])
    ensures TrimStart(t) == t
  {
    assert [] + t == t;
    TrimStartPadded([], t);
  }

  /** Collapsing white space twice is collapsing it once. */
  lemma CollapseSpaceIdempotent(s: string)
    ensures CollapseSpace(CollapseSpace(s)) == CollapseSpace(s)
  {
    CollapseSpaceCollapsed(s);
    CollapseSpaceFixed(CollapseSpace(s));
  }

  lemma CollapsedCons(ch: char, c: string)
    requires Collapsed(c)
    requires IsSpace(ch) ==> ch == ' ' && (c == [] || !IsSpace(c[0]))
    ensures Collapsed([ch] + c)
  {
    var s := [ch] + c;
    forall k | 0 <= k < |s| && IsSpace(s[k]) ensures s[k] == ' ' {
      if k > 0 {
        assert s[k] == c[k - 1];
      }
    }
    forall k | 0 <= k < |s| - 1 ensures !(IsSpace(s[k]) && IsSpace(s[k + 1])) {
      if k > 0 {
        assert s[k] == c[k - 1] && s[k + 1] == c[k];
      }
    }
  }

  /** The result holds white space only as single ordinary spaces. */
  lemma {:induction false} CollapseSpaceCollapsed(s: string)
    ensures Collapsed(CollapseSpace(s))
    decreases |s|
  {
    if |s| > 0 {
      if IsSpace(s[0]) {
        var u := TrimStart(s[1..]);
        CollapseSpaceCollapsed(u);
        assert CollapseSpace(s) == [' '] + CollapseSpace(u);
        CollapsedCons(' ', CollapseSpace(u));
      } else {
        CollapseSpaceCollapsed(s[1..]);
        assert CollapseSpace(s) == [s[0]] + CollapseSpace(s[1..]);
        CollapsedCons(s[0], CollapseSpace(s[1..]));
      }
    }
  }

  /** `TrimStart` never reaches past the last visible character. */
  lemma {:induction false} TrimStartKeepsLast(t: string)
    requires t != [] && !IsSpace(t[|t| - 1])
    ensures TrimStart(t) != [] && TrimStart(t)[|TrimStart(t)| - 1] == t[|t| - 1]
    decreases |t|
  {
    if IsSpace(t[0]) {
      TrimStartKeepsLast(t[1..]);
    }
  }

  /** Leading white space that ends before the last visible character of `x`
      is trimmed the same whatever follows `x`. */
  lemma {:induction false} TrimStartAppend(x: string, v: string)
    requires x != [] && !IsSpace(x[|x| - 1])
    ensures TrimStart(x + v) == TrimStart(x) + v
    decreases |x|
  {
    assert (x + v)[0] == x[0];
    if IsSpace(x[0]) {
      assert (x + v)[1..] == x[1..] + v;
      TrimStartAppend(x[1..], v);
    }
  }

  lemma ConsSlice<T>(a: seq<T>, b: seq<T>)
    requires |a| > 0
    ensures (a + b)[0] == a[0] && (a + b)[1..] == a[1..] + b
  {
  }

  lemma ConcatAssoc<T>(a: seq<T>, b: seq<T>, c: seq<T>)
    ensures a + (b + c) == (a + b) + c
  {
  }

  /** Splitting at a visible character splits the result: no run of white
      space crosses the boundary. */
  lemma CollapseSpaceAtSpace(x: string)
    requires |x| > 0 && IsSpace(x[0])
    ensures CollapseSpace(x) == " " + CollapseSpace(TrimStart(x[1..]))
  {
  }

  lemma CollapseSpaceAtVisible(x: string)
    requires |x| > 0 && !IsSpace(x[0])
    ensures CollapseSpace(x) == [x[0]] + CollapseSpace(x[1..])
  {
  }

  lemma AllSpaceTail(w: string)
    requires AllSpace(w) && |w| > 0
    ensures IsSpace(w[0]) && AllSpace(w[1..])
  {
    assert forall k :: 0 <= k < |w| - 1 ==> w[1..][k] == w[k + 1];
  }

  lemma {:induction false} CollapseSpaceConcat(u: string, v: string)
    requires u == [] || !IsSpace(u[|u| - 1])
    ensures CollapseSpace(u + v) == CollapseSpace(u) + CollapseSpace(v)
    decreases |u|
  {
    if |u| == 0 {
      assert u + v == v;
      assert CollapseSpace(u) == [];
      assert CollapseSpace(u) + CollapseSpace(v) == CollapseSpace(v);
    } else {
      var t := u[1..];
      ConsSlice(u, v);
      if IsSpace(u[0]) {
        var w := TrimStart(t);
        CollapseSpaceAtSpace(u + v);
        CollapseSpaceAtSpace(u);
        TrimStartAppend(t, v);
        TrimStartKeepsLast(t);
        CollapseSpaceConcat(w, v);
        ConcatAssoc(" ", CollapseSpace(w), CollapseSpace(v));
      } else {
        CollapseSpaceAtVisible(u + v);
        CollapseSpaceAtVisible(u);
        assert t == [] || t[|t| - 1] == u[|u| - 1];
        CollapseSpaceConcat(t, v);
        ConcatAssoc([u[0]], CollapseSpace(t), CollapseSpace(v));
      }
    }
  }

  /** A run of white space between visible characters, or at either end,
      becomes exactly one ordinary space. */
  lemma CollapseSpaceJoin(u: string, w: string, v: string)
    requires AllSpace(w) && w != []
    requires u == [] || !IsSpace(u[|u| - 1])
    requires v == [] || !IsSpace(v[0])
    ensures CollapseSpace(u + w + v) == CollapseSpace(u) + " " + CollapseSpace(v)
  {
    ConcatAssoc(u, w, v);
    CollapseSpaceConcat(u, w + v);
    AllSpaceTail(w);
    ConsSlice(w, v);
    CollapseSpaceAtSpace(w + v);
    TrimStartPadded(w[1..], v);
    ConcatAssoc(CollapseSpace(u), " ", CollapseSpace(v));
  }

  lemma {:induction false} VisibleAppend(a: string, b: string)
    ensures Visible(a + b) == Visible(a) + Visible(b)
    decreases |a|
  {
    if |a| > 0 {
      assert (a + b)[0] == a[0];
      assert (a + b)[1..] == a[1..] + b;
      VisibleAppend(a[1..], b);
    } else {
      assert a + b == b;
    }
  }

  lemma {:induction false} VisibleOfSpace(a: string)
    requires AllSpace(a)
    ensures Visible(a) == []
    decreases |a|
  {
    if |a| > 0 {
      VisibleOfSpace(a[1..]);
    }
  }

  lemma VisibleCons(s: string)
    requires |s| > 0
    ensures Visible(s) == (if IsSpace(s[0]) then "" else [s[0]]) + Visible(s[1..])
  {
  }

  lemma SplitAt<T>(s: seq<T>, n: nat)
    requires n <= |s|
    ensures s == s[..n] + s[n..]
  {
  }

  /** Collapsing white space never adds, drops or reorders a visible
      character. */
  lemma {:induction false} CollapseSpaceKeepsVisible(s: string)
    ensures Visible(CollapseSpace(s)) == Visible(s)
    decreases |s|
  {
    if |s| > 0 {
      var t := s[1..];
      VisibleCons(s);
      if IsSpace(s[0]) {
        var u := TrimStart(t);
        var w := t[..|t| - |u|];
        CollapseSpaceAtSpace(s);
        CollapseSpaceKeepsVisible(u);
        VisibleAppend(" ", CollapseSpace(u));
        VisibleCons(" ");
        assert " "[1..] == "";
        SplitAt(t, |t| - |u|);
        VisibleAppend(w, u);
        VisibleOfSpace(w);
        assert Visible(s) == Visible(t) == Visible(u);
      } else {
        CollapseSpaceAtVisible(s);
        CollapseSpaceKeepsVisible(t);
        VisibleAppend([s[0]], CollapseSpace(t));
        VisibleCons([s[0]]);
        assert [s[0]][1..] == "";
      }
    }
  }
}

=== FILE: url_trigger.dfy ===
/** The URL-gated triggers of src/common/buttons.ts. `runOnURLMatch`
    registers a callback that adds a button once per page address, sharing
    one module-level `lastUrl` between all registrations; `runOnContentChange`
    registers a callback that runs its function every time the address
    matches. Both run their callback once right away.

    The browser's side is abstracted: the page address is a string
    parameter, `checkButtonExists()` is the boolean it answers, and the
    observer registration, `addButton()` and `func()` are recorded as
    actions. */
module UrlTrigger {
  import opened Wrappers
  import opened Text

  datatype Action = ObserveBody(subtree: bool) | AddButton | RunFunc

  /** `href.split('?')[0]`: the address up to, not including, its first
      `?`. */
  function StripQuery(href: string): (r: string)
    ensures r <= href
    ensures '?' !in r
    ensures |r| < |href| ==> href[|r|] == '?'
    decreases |href|
  {
    if |href| == 0 || href[0] == '?' then []
    else [href[0]] + StripQuery(href[1..])
  }

  /** The three properties above single out the stripped address. */
  lemma {:induction false} StripQueryUnique(href: string, r: string)
    requires r <= href && '?' !in r
    requires |r| < |href| ==> href[|r|] == '?'
    ensures r == StripQuery(href)
    decreases |href|
  {
    if |href| > 0 && href[0] != '?' {
      assert r[0] == href[0];
      assert r[1..] <= href[1..];
      StripQueryUnique(href[1..], r[1..]);
    }
  }

  /** An address with a query string strips back to its path; stripping is
      idempotent. */
  lemma StripQueryOfPath(path: string, query: string)
    requires '?' !in path
    ensures StripQuery(path + ['?'] + query) == path
    ensures StripQuery(path) == path
    ensures StripQuery(StripQuery(path + query)) == StripQuery(path + query)
  {
    StripQueryUnique(path + ['?'] + query, path);
    StripQueryUnique(path, path);
    var r := StripQuery(path + query);
    StripQueryUnique(r, r);
  }

  /** The shared `lastUrl`: absent until the first button is added. */
  datatype Outcome = Outcome(actions: seq<Action>, lastUrl: Option<string>)

  /** The `runOnURLMatch` callback: nothing when the button is there;
      otherwise the button is added when the stripped address differs from
      the last one a button was added for and ends with `urlPath`, and that
      address becomes the last one. */
  function UrlMatchCallback(lastUrl: Option<string>, urlPath: string, buttonExists: bool, href: string): (o: Outcome)
    ensures buttonExists ==> o == Outcome([], lastUrl)
    ensures o.actions == [] || o.actions == [AddButton]
    ensures o.actions == [AddButton] <==>
              && !buttonExists
              && lastUrl != Some(StripQuery(href))
              && EndsWith(StripQuery(href), urlPath)
    ensures o.lastUrl == (if o.actions == [AddButton] then Some(StripQuery(href)) else lastUrl)
  {
    if buttonExists then Outcome([], lastUrl)
    else
      var curUrl := StripQuery(href);
      if Some(curUrl) != lastUrl && EndsWith(curUrl, urlPath) then Outcome([AddButton], Some(curUrl))
      else Outcome([], lastUrl)
  }

  /** `runOnURLMatch`: start observing the body's children, then run the
      callback once. */
  function RunOnUrlMatch(lastUrl: Option<string>, urlPath: string, buttonExists: bool, href: string): (o: Outcome)
    ensures |o.actions| >= 1 && o.actions[0] == ObserveBody(false)
    ensures Outcome(o.actions[1..], o.lastUrl) == UrlMatchCallback(lastUrl, urlPath, buttonExists, href)
  {
    var first := UrlMatchCallback(lastUrl, urlPath, buttonExists, href);
    Outcome([ObserveBody(false)] + first.actions, first.lastUrl)
  }

  /** One later invocation of some `runOnURLMatch` callback: the
      registration's path, whether the button exists, and the address. */
  datatype Call = Call(urlPath: string, buttonExists: bool, href: string)

  /** Callbacks of any registrations, in order, sharing `lastUrl`. */
  function UrlMatchCallbacks(lastUrl: Option<string>, calls: seq<Call>): (o: Outcome)
    decreases |calls|
  {
    if |calls| == 0 then Outcome([], lastUrl)
    else
      var c := calls[0];
      var first := UrlMatchCallback(lastUrl, c.urlPath, c.buttonExists, c.href);
      var rest := UrlMatchCallbacks(first.lastUrl, calls[1..]);
      Outcome(first.actions + rest.actions, rest.lastUrl)
  }

  /** However many callbacks fire, of whichever registrations, while the
      stripped address stays the same, at most one button is added, and none
      when a button was already added for that address. */
  lemma {:induction false} AddsOncePerAddress(lastUrl: Option<string>, calls: seq<Call>, url: string)
    requires forall k :: 0 <= k < |calls| ==> StripQuery(calls[k].href) == url
    ensures var o := UrlMatchCallbacks(lastUrl, calls);
            && multiset(o.actions)[AddButton] <= (if lastUrl == Some(url) then 0 else 1)
            && (o.lastUrl == lastUrl || o.lastUrl == Some(url))
            && (multiset(o.actions)[AddButton] == 1 ==> o.lastUrl == Some(url))
    decreases |calls|
  {
    if |calls| > 0 {
      var c := calls[0];
      var first := UrlMatchCallback(lastUrl, c.urlPath, c.buttonExists, c.href);
      var rest := UrlMatchCallbacks(first.lastUrl, calls[1..]);
      AddsOncePerAddress(first.lastUrl, calls[1..], url);
      assert multiset(first.actions + rest.actions) == multiset(first.actions) + multiset(rest.actions);
    }
  }

  /** Leaving the address and coming back adds the button again: only the
      last address is remembered. */
  lemma ReturningAddsAgain(url: string, other: string, urlPath: string)
    requires '?' !in url && '?' !in other && url != other
    requires EndsWith(url, urlPath) && EndsWith(other, urlPath)
    ensures var o := UrlMatchCallbacks(None, [Call(urlPath, false, url), Call(urlPath, false, other), Call(urlPath, false, url)]);
            o.actions == [AddButton, AddButton, AddButton] && o.lastUrl == Some(url)
  {
    StripQueryOfPath(url, []);
    StripQueryOfPath(other, []);
    var c1 := Call(urlPath, false, url);
    var c2 := Call(urlPath, false, other);
    assert [c1][1..] == [];
    assert StripQuery(url) == url && StripQuery(other) == other;
    assert UrlMatchCallback(Some(other), urlPath, false, url) == Outcome([AddButton], Some(url));
    assert UrlMatchCallbacks(Some(url), []) == Outcome([], Some(url));
    var o3 := UrlMatchCallbacks(Some(other), [c1]);
    assert o3 == Outcome([AddButton] + [], Some(url));
    assert [c2, c1][1..] == [c1];
    var o2 := UrlMatchCallbacks(Some(url), [c2, c1]);
    assert o2 == Outcome([AddButton] + o3.actions, Some(url));
    assert [c1, c2, c1][1..] == [c2, c1];
    assert UrlMatchCallbacks(None, [c1, c2, c1]) == Outcome([AddButton] + o2.actions, Some(url));
  }

  /** The `runOnContentChange` callback: `func` runs whenever the stripped
      address ends with `urlPath`. */
  function ContentChangeCallback(urlPath: string, href: string): (actions: seq<Action>)
    ensures actions == [RunFunc] <==> EndsWith(StripQuery(href), urlPath)
    ensures actions == [] || actions == [RunFunc]
  {
    if EndsWith(StripQuery(href), urlPath) then [RunFunc] else []
  }

  /** `runOnContentChange`: start observing the whole body subtree, then
      run the callback once. */
  function RunOnContentChange(urlPath: string, href: string): (actions: seq<Action>)
    ensures |actions| >= 1 && actions[0] == ObserveBody(true)
    ensures actions[1..] == ContentChangeCallback(urlPath, href)
  {
    [ObserveBody(true)] + ContentChangeCallback(urlPath, href)
  }

  /** Callbacks at the given addresses, in order. */
  function ContentChangeCallbacks(urlPath: string, hrefs: seq<string>): (actions: seq<Action>)
    ensures forall k :: 0 <= k < |actions| ==> actions[k] == RunFunc
    decreases |hrefs|
  {
    if |hrefs| == 0 then []
    else ContentChangeCallback(urlPath, hrefs[0]) + ContentChangeCallbacks(urlPath, hrefs[1..])
  }

  /** There is no de-duplication: `func` runs once per callback at a
      matching address, however often the address repeats. */
  lemma {:induction false} ContentChangeRunsEveryTime(urlPath: string, hrefs: seq<string>)
    requires forall k :: 0 <= k < |hrefs| ==> EndsWith(StripQuery(hrefs[k]), urlPath)
    ensures |ContentChangeCallbacks(urlPath, hrefs)| == |hrefs|
    decreases |hrefs|
  {
    if |hrefs| > 0 {
      ContentChangeRunsEveryTime(urlPath, hrefs[1..]);
    }
  }

  /** The empty path matches every address. */
  lemma EmptyPathRunsEveryTime(hrefs: seq<string>)
    ensures |ContentChangeCallbacks([], hrefs)| == |hrefs|
  {
    forall k | 0 <= k < |hrefs| ensures EndsWith(StripQuery(hrefs[k]), []) {
      var u := StripQuery(hrefs[k]);
      assert u[|u|..] == [];
    }
    ContentChangeRunsEveryTime([], hrefs);
  }

  /** A callback at an address that does not match never runs `func`. */
  lemma {:induction false} ContentChangeSkipsOtherPages(urlPath: string, hrefs: seq<string>)
    requires forall k :: 0 <= k < |hrefs| ==> !EndsWith(StripQuery(hrefs[k]), urlPath)
    ensures ContentChangeCallbacks(urlPath, hrefs) == []
    decreases |hrefs|
  {
    if |hrefs| > 0 {
      ContentChangeSkipsOtherPages(urlPath, hrefs[1..]);
    }
  }
}

=== FILE: wrappers.dfy ===
/** The two wrappers used across the model: optional values (the page's
    `undefined` / `null`) and results that carry either a value or the error
    the page would have thrown. Callers match on them directly. */
module Wrappers {

  datatype Option<+T> = None | Some(value: T)

  datatype Result<+R, +E> = Success(value: R) | Failure(error: E)
}
